=== FILE: README.md ===
# Squirrel core in Dafny

Squirrel discovers peers on a local network and sends a file to a chosen peer. A background service
can broker discovery and transfers for a short-lived foreground application. This project models the
sequential core of that program and proves properties of the model:

- the Base64 codec used for file contents (`Base64`, with the bit operations of C++ in `Bits`);
- the wire envelope: the magic `squirrel` followed by a property tree `{name:value,...}` (`Json`);
- the cross-process mailbox between the service and the application (`Mailbox`):
  - two channels, each a message file plus a semaphore;
  - the record-kind dispatch of the two listener loops;
- the two hand-off queues, `ThreadSafeQueue` (`SafeQueue`) and `MainThreadQueue` (`ThreadQueue`);
- the command-line flag parser (`Flags`).

`Wrappers` holds `Option` and `Result`. `Result.Err` carries the message the implementation passes
to its error handler.

Every operation is a pure function over immutable values. The program's mutable state is modelled as
follows:

- A mailbox channel is its byte store and its semaphore count.
- A queue is the sequence of its values, front first.
- A parse returns what it read together with the input left over.

C++ semantics are written out:

- A `char` is signed, as on x86; on targets such as ARM Linux it is unsigned. `Base64.SignedChar`
  gives the value a byte has once stored in a signed `char`.
- `>>` rounds down, `<<` multiplies, and `&` with a low mask is a remainder. These are the C++20
  rules. Before C++20, shifting a negative value left is undefined.
- `|` is `Bits.Or` on unbounded two's-complement integers.
- Storing an `int` into a `char` keeps its low eight bits (`Bits.Lo8`).

Two properties one expects of such a program hold only in part, and the model follows the code:

- A Base64 codec is expected to satisfy `decode(encode(b)) == b` for every byte sequence. This code
  keeps it only for whole 3-byte groups, or when the bits its tail decoding drops are zero (see
  Findings).
- A serializer is expected to read back every tree it writes. This one escapes nothing, so the round
  trip holds only when:
  - no name contains `:` or starts with `}`;
  - no string contains `"`.

  `Json.Encodable` states these conditions.

The envelope writer iterates an `unordered_map`, whose order is unspecified. `Json.Serialize` is
therefore a ghost function over some enumeration of the names (`Json.IterationOrder`). The round
trip is proved for every order of the outer object's properties (`Json.ParseSerializedProps`).
Nested objects are written in the one order `Json.IterationOrder` picks for their names.

## Model

| member | source | states |
|---|---|---|
| Bits.Or | src/base64.cpp:12-13 | C++ bitwise OR on two's-complement integers: non-negative when both operands are, negative when either is |
| Bits.OrDisjoint | src/base64.cpp:41-43 | OR of a value shifted left by k with a value below 2^k is their sum, which is how each output byte is packed from two symbol fields |
| Base64.AlphabetSymbols | include/base64.h:5 | `ALPHABET` has 64 symbols: A-Z, a-z, 0-9, `+`, `/` in that order |
| Base64.SymbolValue | src/base64.cpp:60-83 | the symbol-to-value map is total on every `char` and never rejects one; its value lies in -124..63 |
| Base64.SymbolValueInvertsAlphabet | src/base64.cpp:60-83 | `base64ToAscii(ALPHABET[k]) == k` for every k below 64 |
| Base64.AlphabetIsInjective | include/base64.h:5 | no symbol appears twice in the alphabet, so a symbol identifies its value |
| Base64.Encode | src/base64.cpp:3-31 | output length is 4*(n/3) plus 0, 2 or 3 symbols for n mod 3 = 0, 1, 2; every symbol is drawn from the alphabet, for every byte value |
| Base64.EncodeAsWritten | src/base64.cpp:11-27 | the encoder with signed `char` arithmetic: it defines a result only when every alphabet index is in 0..63 |
| Base64.EncodeAsWrittenDefinedIffSevenBit | src/base64.cpp:11-27 | the encoder as written is defined exactly on 7-bit input, and there it agrees with `Encode` |
| Base64.SevenBitIndicesAgree | src/base64.cpp:9-27 | on 7-bit input the signed shifts compute the same alphabet indices as unsigned ones |
| Base64.HighByteIndexNegative | src/base64.cpp:11 | any byte of 0x80 or above drives some alphabet index below zero |
| Base64.HighByteIndexesBeforeAlphabet | src/base64.cpp:19 | the single byte 0x80 yields index -32, so the encoder as written has no defined result |
| Base64.Decode | src/base64.cpp:33-58 | under C++20 shift rules decoding never fails; output length is 3*(m/4) plus 0, 0, 1 or 2 bytes for m mod 4 = 0, 1, 2, 3, so a lone leftover symbol is dropped |
| Base64.DecodeIntended | src/base64.cpp:46-55 | the corrected decoder has the same length law as `Decode` |
| Base64.ValuesOfSymbols | src/base64.cpp:60-83 | mapping encoded symbols back through `base64ToAscii` recovers the alphabet indices |
| Base64.GroupBytesOfIndices | src/base64.cpp:11-14 | the three bytes packed from the four indices of a group are the group's bytes |
| Base64.LossyRecoveryOfGroups | src/base64.cpp:39-44 | what decoding recovers splits into the first whole group followed by what the rest recovers |
| Base64.DecodeValuesOfIndices | src/base64.cpp:39-55 | decoding the indices of b gives b, except the last byte of a 1-byte tail with its low 2 bits cleared and the second byte of a 2-byte tail with its low 4 bits cleared |
| Base64.DecodeValuesIntendedOfIndices | src/base64.cpp:39-44 | the corrected tail decoding recovers the indices' bytes exactly |
| Base64.DecodeEncodeLosesTailBits | src/base64.cpp:17-27 | `decode(encode(b))` is b with the tail bits cleared, as above |
| Base64.LossyRecoveryIsIdentityIff | src/base64.cpp:46-55 | the recovery equals b exactly when b is whole groups or the bits the tail loses are already zero |
| Base64.TailCleared | src/base64.cpp:48 | clearing the low bits of a trailing byte changes the sequence exactly when those bits are not all zero |
| Base64.RoundTripIff | src/base64.cpp:9-55 | `decode(encode(b)) == b` if and only if \|b\| mod 3 is 0, or the lost tail bits are zero |
| Base64.DecodeEncodeFullGroups | src/base64.cpp:9-15 | `decode(encode(b)) == b` whenever \|b\| is a multiple of 3 |
| Base64.SevenBitRoundTrip | src/base64.cpp:39-44 | for whole groups of 7-bit bytes, the encoder as written is defined and decoding its output gives the input back |
| Base64.SingleByteRoundTripFails | src/base64.cpp:17-49 | the byte 0x01 encodes to `AQ`, and `AQ` decodes to the byte 0x00 |
| Base64.DecodeIntendedRoundTrip | src/base64.cpp:46-55 | with the corrected tail, `decode(encode(b)) == b` for every byte sequence |
| Json.IndexOf | src/json.cpp:16-19 | a name is read up to the first `:`; there is none exactly when `:` does not occur |
| Json.ParseString | src/json.cpp:127-146 | reading a string fails exactly when no closing quote follows; otherwise the input is quote, text, quote, rest, and the text has no quote |
| Json.ParseObject | src/json.cpp:6-81 | a parsed object consumes input through a closing `}` and yields an object node |
| Json.ParseMembers | src/json.cpp:12-80 | parsing members yields an object that keeps every name read so far and ends just after a `}` |
| Json.MembersKeepRead | src/json.cpp:12-80 | parsing members keeps every property read before, with its name and its value |
| Json.Deserialize | src/json.cpp:161-178 | a message comes back exactly when the input starts with `squirrel` and then `{`; its tree is null exactly when the object does not parse |
| Json.Serialize | src/json.cpp:83-107 | a string is written between quotes and an object between braces; `Json.ParseSerialized` reads every encodable node back |
| Json.SerializeProps | src/json.cpp:89-104 | the properties, each written `name:value` and separated by commas; `Json.ParseSerializedProps` reads them back in the order written |
| Json.SerializeMessage | src/json.cpp:180-185 | the envelope starts with `squirrel`, followed by `{` exactly when the tree is an object; `Json.DeserializeSerialized` reads it back |
| Json.IterationOrder | src/json.cpp:89 | properties are written in some order that lists every name exactly once |
| Json.IndexOfPrefix | src/json.cpp:16-19 | a name without `:` followed by `:` is read as exactly that name |
| Json.ParseQuoted | src/json.cpp:148-151 | a string written between quotes, with no quote inside, reads back as itself |
| Json.ParseSerialized | src/json.cpp:83-107 | an encodable node written and followed by anything reads back equal, and the parse stops right after it |
| Json.ParseSerializedProps | src/json.cpp:89-104 | the written properties of an object read back in the order written, adding exactly those properties |
| Json.DeserializeSerialized | src/json.cpp:180-185 | the envelope round trip: deserializing what serialization writes gives a message whose tree equals the original |
| Json.MemberThenComma | src/json.cpp:62-65 | after a property and a comma, parsing goes on with that property recorded |
| Json.MemberThenBrace | src/json.cpp:67-80 | after a property and a closing brace, the object ends with that property recorded |
| Json.DuplicateNameRejected | src/json.cpp:26-29 | a name that comes again later in the same object, after any number of other properties, fails the parse |
| Json.RepeatedNameRejected | src/json.cpp:26-29 | once a name has been read, a later property of that name fails the object, whatever properties lie in between |
| Json.DuplicateNameGivesEmptyMessage | src/json.cpp:177 | an envelope whose object names a property again, after any properties in between, still yields a message, whose tree is null |
| Json.TrailingCommaAccepted | src/json.cpp:62-65 | a comma directly before `}` is accepted and closes the object |
| Json.BadValueRejected | src/json.cpp:57-60 | a value that starts with neither `"` nor `{` fails the parse |
| Json.BadSeparatorRejected | src/json.cpp:62-70 | a value followed by neither `,` nor `}`, or by nothing, fails the parse |
| Json.MissingColonRejected | src/json.cpp:16-24 | input that ends inside a property name, before any `:`, fails the object |
| Json.UnclosedObjectRejected | src/json.cpp:73-76 | an envelope with no `}` anywhere after the magic yields a message whose tree is null |
| Json.ValueExtend | src/json.cpp:6-81 | a value read from some input reads the same from any extension of it, which only lengthens the rest |
| Json.MembersExtend | src/json.cpp:12-80 | the properties of an object read from some input read the same from any extension of it |
| Json.CutValueFails | src/json.cpp:12-80 | a serialized encodable node cut short anywhere does not parse |
| Json.TruncatedMessageRejected | src/json.cpp:161-178 | a serialized envelope cut short after its `{` yields a message whose tree is null; cut shorter, no message at all |
| Json.PropertyAfterRoundTrip | src/json.cpp:109-122 | after a round trip, a string property reads back as its text, and a missing property reads as an empty object that has no text |
| Mailbox.Update | src/service.cpp:373-386 | selecting a channel by kind touches that channel only |
| Mailbox.Write | src/service.cpp:367-419 | `writeMessage` appends the record to the end of the channel's store and adds one to its count; the other channel is unchanged |
| Mailbox.Read | src/service.cpp:421-530 | `readMessage` takes one from the count and returns the first length-field bytes, where the length sits little-endian at bytes 2-3; the store becomes exactly the rest; the other channel is unchanged |
| Mailbox.Clear | src/service.cpp:548-593 | `clearMessage` leaves the channel with an empty store and a zero count; the other channel is unchanged |
| Mailbox.Initialize | src/service.cpp:62-89 | fails with the files message if the files do not open, with the semaphores message if the semaphores do not open; otherwise both channels end up empty |
| Mailbox.Records | src/service.cpp:472-474 | the records the length fields cut from a store, each framed by its own length |
| Mailbox.RecordsAppend | src/service.cpp:395 | appending a framed record to a store that cuts cleanly adds that record last |
| Mailbox.WriteQueues | src/service.cpp:395-411 | a write keeps the count equal to the number of records and queues the record last |
| Mailbox.ReadDequeues | src/service.cpp:442-529 | on a consistent channel with a record posted, a read can proceed; it returns the first record and keeps the channel consistent with the rest |
| Mailbox.InitializeConsistent | src/service.cpp:78-86 | after a successful `initialize` both channels are empty and consistent |
| Mailbox.FirstInFirstOut | src/service.cpp:472-520 | two records written to a cleared channel are read back in the order written, leaving the channel empty |
| Mailbox.NulFrom | src/service.cpp:53 | the end of the NUL-terminated name: the first zero byte at or after a position |
| Mailbox.Dispatch | src/service.cpp:25-54 | the service listener connects only on CONNECTION records, the application listener responds only on RESPONSE records; the address is bytes 4-7 and the name runs from byte 8 to the first NUL |
| Mailbox.ServiceActsOnConnection | src/service.cpp:27-29 | a connection record makes the service connect to the address it carries |
| Mailbox.ApplicationActsOnResponse | src/service.cpp:51-53 | a response record makes the application receive the name and address it carries |
| Mailbox.ListenersIgnoreOtherKind | src/service.cpp:25-54 | the service listener ignores a response record and the application listener ignores a connection record |
| Mailbox.NulAfter | src/service.cpp:53 | the name ends at the first NUL following byte 8 |
| SafeQueue.Push | include/safe_queue.hpp:9-16 | `push` puts the value at the back and leaves the values already queued unchanged |
| SafeQueue.Pop | include/safe_queue.hpp:18-36 | `pop` on an empty queue returns nothing and the queue stays empty; otherwise it returns the front value and removes exactly that value |
| SafeQueue.PushAllAppends | include/safe_queue.hpp:13 | pushing values one at a time appends them in order |
| SafeQueue.Drain | include/safe_queue.hpp:29-31 | popping until empty yields the queue's values front to back |
| SafeQueue.PushThenDrain | include/safe_queue.hpp:9-36 | values are popped in the order they were pushed |
| ThreadQueue.Push | src/thread_queue.cpp:6-23 | `push` appends the task at the back from either branch |
| ThreadQueue.PushIgnoresThread | src/thread_queue.cpp:8-20 | `push` has the same effect from the main thread and from any other |
| ThreadQueue.Execute | src/thread_queue.cpp:25-42 | `execute(false)` on an empty queue does nothing; otherwise the front task runs and is removed, and tasks it pushes land behind those already queued; `execute(true)` needs a non-empty queue |
| ThreadQueue.RunAll | src/thread_queue.cpp:37-41 | executing until empty runs the queued tasks front to back |
| ThreadQueue.PushedRunInOrder | src/thread_queue.cpp:6-42 | tasks run in the order they were pushed |
| ThreadQueue.PushedDuringRunComesLast | src/thread_queue.cpp:37-41 | on a non-empty queue, tasks pushed by the running task come after every task already queued, whether or not `execute` blocks |
| Flags.Step | src/flags.cpp:9-89 | once a launch type is set it never changes; it changes only from General, and only on a launch flag; nothing is accepted after `--service`, and no unknown option is accepted |
| Flags.ParseFrom | src/flags.cpp:7-89 | the loop over the arguments: once a launch type is set it is the result's, and nothing is accepted after `--service` |
| Flags.Parse | src/flags.cpp:3-93 | `Flags::parse` runs the loop from the defaults; an accepted parse is General exactly when no launch flag was given |
| Flags.ParseFromLaunch | src/flags.cpp:7-52 | an accepted run has no unknown `--` option and at most one launch flag; the result's type is the flag given; `--service` can only be the last argument |
| Flags.ParseFromReceive | src/flags.cpp:63-66 | under `--receive` every later argument is an address and the last one wins; without `--receive` the ip stays empty |
| Flags.ParseFromPath | src/flags.cpp:68-87 | in General mode the first unnamed argument becomes the path, which exists, and a second one fails the parse |
| Flags.PathKept | src/flags.cpp:56-66 | once a launch flag is set, the path is not touched |
| Flags.TwoLaunchFlagsRejected | src/flags.cpp:9-43 | `--service` or `--receive` given twice, or both given in either order, fails the parse |
| Flags.UnknownOptionRejected | src/flags.cpp:47-52 | any other argument starting with `--` fails the parse |
| Flags.ArgumentAfterServiceRejected | src/flags.cpp:56-61 | any argument after `--service` fails the parse |
| Flags.ParseAccepted | src/flags.cpp:3-93 | an accepted parse has at most one launch flag and is General exactly without one; a receiver's ip is the last argument after `--receive`; the path is the single argument before any flag, and it exists |
| Flags.LaunchConflictMessages | src/flags.cpp:11-40 | after any accepted arguments that include a launch flag, a second launch flag fails the parse with the duplicate or conflict message for that pair, whatever follows |
| Flags.UnknownOptionMessage | src/flags.cpp:47-52 | after any accepted arguments, an unknown `--` option fails the parse with a message naming it, whatever follows |
| Flags.ServiceArgumentMessage | src/flags.cpp:56-61 | after any accepted arguments that include `--service`, an unnamed argument fails the parse with the service message |
| Flags.MissingFileMessage | src/flags.cpp:70-78 | a first unnamed argument naming no existing file fails the parse with a message naming it, whatever follows |
| Flags.TooManyFilesMessage | src/flags.cpp:82-87 | a second unnamed argument after an existing file fails the parse with the too-many-files message |
| Flags.ParseFromAppend | src/flags.cpp:7-89 | the loop over a + b is the loop over a, then over b from where a left off; an error in a ends it |
| Flags.FailingStep | src/flags.cpp:7-89 | after accepted arguments, an argument whose step fails ends the parse with that step's message, whatever follows |
| Flags.ParseNoArguments | src/flags.cpp:3-93 | with no arguments the parse succeeds with the defaults: General, no path, no ip |

## Left out

- Base64.Encode: reads bytes as unsigned. Where `char` is signed, the code's reading is defined only
  for bytes below 0x80. `Base64.EncodeAsWritten` models that reading.
- Base64 `unsigned int` sizes: inputs of 2^32 bytes or more, where the 32-bit `truncated` would wrap,
  are not modelled.
- Json: memory ownership is not modelled. This covers the nodes leaked on a failed parse, the fresh
  object `getProperty` allocates, and `Message::serialize` on a null tree (undefined there).
- Json: `stream.get(buffer, 9)` stops at a newline. Such input differs from `squirrel` within its
  first eight characters anyway, so `Json.Deserialize` tests those eight characters directly.
- Json.Serialize: a nested object is written in the order `Json.IterationOrder` picks for its
  names. The round trip is proved for that order only; every order is covered for the outer object
  alone.
- Mailbox: the Windows branch (src/service.cpp:91-360) is not modelled.
- Mailbox: opening the files and the semaphores may fail, as `Mailbox.Initialize` models with its
  two messages. Every other call (flock, lseek, read, write, ftruncate, sem_wait and sem_post,
  including those `clearMessage` makes) is assumed to succeed, so their error messages and the
  locks an error path leaves held are not modelled.
- Mailbox: concurrent writers and readers on the same channel are not modelled; every operation is
  one atomic step.
- Mailbox.Read: requires `count > 0`. The code blocks in `sem_wait` on a zero count.
- Mailbox.Read: requires a store of at least 4 bytes. With a shorter one, the read of the header
  comes up short and the length field is uninitialised.
- Mailbox.Read: requires a length field of at least 4. With a smaller one, `length - 4` wraps to a
  huge `size_t` and the read writes past the `length`-byte buffer.
- Mailbox.Read: requires a length field no larger than the store. With a larger one, the read comes
  up short: the record's tail stays uninitialised and the store is left empty.
- Mailbox.Dispatch: needs an 8-byte record, and for a response a NUL after byte 8. Without them the
  code reads past the record.
- Mailbox.Dispatch: returns the raw 32-bit address. `convertAddress` and `beginConnect` are not part
  of this model, and neither is the `handleResponse` callback.
- Mailbox: the listener threads and their endless loops are not modelled; one loop iteration is
  `Mailbox.Dispatch`.
- SafeQueue and ThreadQueue: the mutex and condition variable only serialize the operations, and the
  model is sequential.
- ThreadQueue.Execute: a task is opaque. Its effect on the queue is the tasks it pushes, given as a
  parameter. A task that calls `execute` itself is not modelled.
- ThreadQueue.Execute: `execute(true)` on an empty queue waits for another thread. Here that is the
  precondition that the queue is not empty.
- Flags: `std::filesystem::exists` is the parameter `fileExists`. The overload used throws
  `filesystem_error` when the status query itself fails (a permission error, say); that case is not
  modelled.
- Flags.ParseFromPath: assumes `fileExists("")` is false, as it is for a real file system. With an
  oracle that accepts the empty path, an empty first argument would leave room for a second.
- Flags.ParseAccepted: assumes `fileExists("")` is false too, for the same reason.
- Flags: the error handler is not modelled; its message is the `Err` value. The `main` wiring, which
  drops the program name before calling the parser, is not modelled either.
- Network discovery and transfer (`NetworkManager`), the SDL interface, file dialogs and process
  spawning are not part of this model.

## Findings

| source | as written | input that shows it | evidently intended | confidence | as-written member | corrected member |
|---|---|---|---|---|---|---|
| src/base64.cpp:11-27 | the bytes are shifted as signed `char` and used directly as `ALPHABET` indices | the single byte 0x80: `str[0] >> 2` is -32, an index before the start of the alphabet | treat the input bytes as `unsigned char`, so that every index is in 0..63 | not executed; the code is correct wherever `char` is unsigned | Base64.HighByteIndexesBeforeAlphabet | Base64.Encode |
| src/base64.cpp:46-55 | a 2-symbol tail decodes to `v0 << 2` and a 3-symbol tail ends with `v1 << 4`, dropping the bits the next symbol carries | the byte 0x01 encodes to `AQ`, which decodes to the byte 0x00 | OR in `v1 >> 4` for a 2-symbol tail and `v2 >> 2` for the second byte of a 3-symbol tail, so that every encoding decodes to its input | not executed | Base64.SingleByteRoundTripFails | Base64.DecodeIntendedRoundTrip |

=== FILE: base64.dfy ===
/** The Base64 codec: 3 bytes <-> 4 symbols of the RFC 4648 section 4 alphabet, without `=` padding.

    Bytes are `byte` values 0..255. Text is a Dafny `string` whose characters are C `char`s, so every
    character of text handed to `Decode` has a code below 256. The shifts, masks and ORs of the
    implementation are written out: `v >> k` is `v / 2^k` (arithmetic shift, rounding down),
    `v << k` is `v * 2^k`, `v & (2^k - 1)` is `v % 2^k`, and `|` is `Bits.Or`. */
module Base64 {
  import opened Bits
  import opened Wrappers

  /** The k-th symbol of the alphabet: three contiguous ASCII runs, then `+` and `/`. */
  function SymbolOf(k: nat): char
    requires k < 64
  {
    if k < 26 then (65 + k) as char
    else if k < 52 then (97 + k - 26) as char
    else if k < 62 then (48 + k - 52) as char
    else if k == 62 then '+'
    else '/'
  }

  const UpperCase: string := "ABCDEFGHIJKLMNOPQRSTUVWXYZ"
  const LowerCase: string := "abcdefghijklmnopqrstuvwxyz"
  const Digits: string := "0123456789"

  /** `ALPHABET` of the implementation: the alphabet of RFC 4648 section 4 (Table 1). */
  const Alphabet: string := UpperCase + LowerCase + Digits + "+/"

  /** Symbol k of the alphabet is `SymbolOf(k)`. */
  lemma AlphabetSymbols()
    ensures |Alphabet| == 64
    ensures forall k :: 0 <= k < 64 ==> Alphabet[k] == SymbolOf(k)
  {
    assert forall k :: 0 <= k < 26 ==> UpperCase[k] as int == 65 + k;
    assert forall k :: 0 <= k < 26 ==> LowerCase[k] as int == 97 + k;
    assert forall k :: 0 <= k < 10 ==> Digits[k] as int == 48 + k;
  }

  predicate IsByteText(s: string)
  {
    forall i :: 0 <= i < |s| ==> s[i] as int < 256
  }

  predicate IsSevenBit(b: seq<byte>)
  {
    forall i :: 0 <= i < |b| ==> b[i] < 128
  }

  /** The value a byte has once stored in a C `char` on targets where `char` is signed, such as x86. */
  function SignedChar(b: byte): (r: int)
    ensures -128 <= r < 128
    ensures r < 0 <==> b >= 128
  {
    if b < 128 then b else b - 256
  }

  /** The symbol-to-value map: exact for the 64 alphabet symbols, and plain arithmetic on the character
      code for everything else, so that no input is ever rejected. */
  function SymbolValue(c: char): (r: int)
    requires c as int < 256
    ensures -124 <= r < 64
  {
    var v := SignedChar(c as int);
    if c == '+' then 62
    else if c == '/' then 63
    else if v < 58 then v + 4
    else if v < 91 then v - 65
    else v - 71
  }

  /** The symbol-to-value map inverts the alphabet. */
  lemma SymbolValueInvertsAlphabet(k: nat)
    requires k < 64
    ensures Alphabet[k] as int < 256
    ensures SymbolValue(Alphabet[k]) == k
  {
    AlphabetSymbols();
  }

  /** ... and so distinct indices give distinct symbols. */
  lemma AlphabetIsInjective(i: nat, j: nat)
    requires i < 64 && j < 64 && Alphabet[i] == Alphabet[j]
    ensures i == j
  {
    SymbolValueInvertsAlphabet(i);
    SymbolValueInvertsAlphabet(j);
  }

  lemma OrShl2(hi: nat, lo: nat)
    requires lo < 4
    ensures Or(hi * 4, lo) == hi * 4 + lo
  {
    OrDisjoint(hi, lo, 2);
  }

  lemma OrShl4(hi: nat, lo: nat)
    requires lo < 16
    ensures Or(hi * 16, lo) == hi * 16 + lo
  {
    OrDisjoint(hi, lo, 4);
  }

  lemma OrShl6(hi: nat, lo: nat)
    requires lo < 64
    ensures Or(hi * 64, lo) == hi * 64 + lo
  {
    OrDisjoint(hi, lo, 6);
  }

  // ---------------------------------------------------------------- encode

  predicate InAlphabetRange(idx: seq<int>)
  {
    forall i :: 0 <= i < |idx| ==> 0 <= idx[i] < 64
  }

  /** The four symbol indices of one full group of bytes x, y, z read as unsigned: the 24 bits of the
      group cut into four 6-bit fields, most significant first. */
  function GroupIndices(x: byte, y: byte, z: byte): (r: seq<int>)
    ensures r == [x / 4, (x % 4) * 16 + y / 16, (y % 16) * 4 + z / 64, z % 64]
  {
    OrShl4(x % 4, y / 16);
    OrShl2(y % 16, z / 64);
    [x / 4, Or((x % 4) * 16, y / 16), Or((y % 16) * 4, z / 64), z % 64]
  }

  /** The symbol indices of a trailing group of one or two bytes; the bits missing from the last
      symbol are zero. */
  function TailIndices(t: seq<byte>): (r: seq<int>)
    requires |t| < 3
    ensures |t| == 0 ==> r == []
    ensures |t| == 1 ==> r == [t[0] / 4, (t[0] % 4) * 16]
    ensures |t| == 2 ==> r == [t[0] / 4, (t[0] % 4) * 16 + t[1] / 16, (t[1] % 16) * 4]
  {
    if |t| == 1 then [t[0] / 4, (t[0] % 4) * 16]
    else if |t| == 2 then
      OrShl4(t[0] % 4, t[1] / 16);
      [t[0] / 4, Or((t[0] % 4) * 16, t[1] / 16), (t[1] % 16) * 4]
    else []
  }

  /** The symbol indices of the encoding of b, group by group from the front. */
  function Indices(b: seq<byte>): (r: seq<int>)
    ensures |r| == 4 * (|b| / 3) + (if |b| % 3 == 0 then 0 else |b| % 3 + 1)
    ensures InAlphabetRange(r)
  {
    if |b| >= 3 then GroupIndices(b[0], b[1], b[2]) + Indices(b[3..])
    else TailIndices(b)
  }

  /** The alphabet symbols at the given indices. */
  function Symbols(idx: seq<int>): (r: string)
    requires InAlphabetRange(idx)
    ensures |r| == |idx|
    ensures forall i :: 0 <= i < |r| ==> r[i] == Alphabet[idx[i]]
    ensures IsByteText(r)
  {
    AlphabetSymbols();
    if |idx| == 0 then [] else [Alphabet[idx[0]]] + Symbols(idx[1..])
  }

  /** Base64-encodes b, reading each byte as unsigned: full groups give four symbols, a trailing single
      byte two symbols and a trailing pair three; no padding is written, and every symbol is one of the
      64 of the alphabet. */
  function Encode(b: seq<byte>): (r: string)
    ensures |r| == 4 * (|b| / 3) + (if |b| % 3 == 0 then 0 else |b| % 3 + 1)
    ensures forall i :: 0 <= i < |r| ==> r[i] in Alphabet
    ensures IsByteText(r)
  {
    Symbols(Indices(b))
  }

  /** The symbol indices the implementation computes for one full group, with each byte read as a signed
      `char`; a byte of 128 or more makes an index negative. */
  function GroupIndicesAsWritten(x: byte, y: byte, z: byte): (r: seq<int>)
  {
    var s0, s1, s2 := SignedChar(x), SignedChar(y), SignedChar(z);
    [s0 / 4, Or((s0 % 4) * 16, s1 / 16), Or((s1 % 16) * 4, s2 / 64), s2 % 64]
  }

  function TailIndicesAsWritten(t: seq<byte>): (r: seq<int>)
    requires |t| < 3
  {
    if |t| == 1 then [SignedChar(t[0]) / 4, (SignedChar(t[0]) % 4) * 16]
    else if |t| == 2 then
      var s0, s1 := SignedChar(t[0]), SignedChar(t[1]);
      [s0 / 4, Or((s0 % 4) * 16, s1 / 16), (s1 % 16) * 4]
    else []
  }

  function IndicesAsWritten(b: seq<byte>): (r: seq<int>)
  {
    if |b| >= 3 then GroupIndicesAsWritten(b[0], b[1], b[2]) + IndicesAsWritten(b[3..])
    else TailIndicesAsWritten(b)
  }

  /** The encoder exactly as written, with signed `char`s: None where it would read the alphabet
      outside its 64 symbols, which is undefined behaviour. */
  function EncodeAsWritten(b: seq<byte>): Option<string>
  {
    var idx := IndicesAsWritten(b);
    if InAlphabetRange(idx) then Some(Symbols(idx)) else None
  }

  /** On 7-bit input the signed and the unsigned reading compute the same indices. */
  lemma {:induction false} SevenBitIndicesAgree(b: seq<byte>)
    requires IsSevenBit(b)
    ensures IndicesAsWritten(b) == Indices(b)
  {
    if |b| >= 3 {
      assert IsSevenBit(b[3..]);
      SevenBitIndicesAgree(b[3..]);
    }
  }

  /** A byte of 128 or more yields a negative index in the signed reading. */
  lemma {:induction false} HighByteIndexNegative(b: seq<byte>, i: nat)
    requires i < |b| && b[i] >= 128
    ensures !InAlphabetRange(IndicesAsWritten(b))
  {
    var idx := IndicesAsWritten(b);
    if |b| >= 3 {
      if i == 0 {
        assert idx[0] < 0;
      } else if i == 1 {
        assert idx[1] < 0;
      } else if i == 2 {
        assert idx[2] < 0;
      } else {
        assert b[3..][i - 3] >= 128;
        HighByteIndexNegative(b[3..], i - 3);
        var rest := IndicesAsWritten(b[3..]);
        var j :| 0 <= j < |rest| && !(0 <= rest[j] < 64);
        assert idx[4 + j] == rest[j];
      }
    } else {
      assert idx[i] < 0;
    }
  }

  /** The encoder as written is defined exactly on 7-bit input, and there it agrees with `Encode`. */
  lemma EncodeAsWrittenDefinedIffSevenBit(b: seq<byte>)
    ensures EncodeAsWritten(b).Some? <==> IsSevenBit(b)
    ensures IsSevenBit(b) ==> EncodeAsWritten(b) == Some(Encode(b))
  {
    if IsSevenBit(b) {
      SevenBitIndicesAgree(b);
    } else {
      var i :| 0 <= i < |b| && b[i] >= 128;
      HighByteIndexNegative(b, i);
    }
  }

  /** A single byte 0x80 already makes the encoder as written read the alphabet at index -32. */
  lemma HighByteIndexesBeforeAlphabet()
    ensures IndicesAsWritten([0x80])[0] == -32
    ensures EncodeAsWritten([0x80]) == None
  {
  }

  // ---------------------------------------------------------------- decode

  /** The values `base64ToAscii` gives the characters of s. */
  function Values(s: string): (r: seq<int>)
    requires IsByteText(s)
    ensures |r| == |s|
    ensures forall i :: 0 <= i < |s| ==> r[i] == SymbolValue(s[i])
  {
    if |s| == 0 then [] else [SymbolValue(s[0])] + Values(s[1..])
  }

  /** The three bytes the implementation decodes from the symbol values of one full group. */
  function GroupBytes(v0: int, v1: int, v2: int, v3: int): seq<byte>
  {
    [Lo8(Or(v0 * 4, v1 / 16)), Lo8(Or(v1 * 16, v2 / 4)), Lo8(Or(v2 * 64, v3))]
  }

  /** Decoding of symbol values as the implementation does it: a trailing pair gives one byte built from
      the first value alone, a trailing triple two bytes the second of which comes from the second value
      alone, and a lone trailing value nothing. */
  function DecodeValues(v: seq<int>): (r: seq<byte>)
    ensures |r| == 3 * (|v| / 4) + (if |v| % 4 == 3 then 2 else if |v| % 4 == 2 then 1 else 0)
  {
    if |v| >= 4 then GroupBytes(v[0], v[1], v[2], v[3]) + DecodeValues(v[4..])
    else if |v| == 2 then [Lo8(v[0] * 4)]
    else if |v| == 3 then [Lo8(Or(v[0] * 4, v[1] / 16)), Lo8(v[1] * 16)]
    else []
  }

  /** Base64-decodes s as the implementation does. Every text decodes: characters outside the alphabet
      are mapped arithmetically, never rejected. */
  function Decode(s: string): (r: seq<byte>)
    requires IsByteText(s)
    ensures |r| == 3 * (|s| / 4) + (if |s| % 4 == 3 then 2 else if |s| % 4 == 2 then 1 else 0)
  {
    DecodeValues(Values(s))
  }

  /** Decoding with the trailing group packed like the front of a full group, as the encoder lays it out. */
  function DecodeValuesIntended(v: seq<int>): (r: seq<byte>)
    ensures |r| == 3 * (|v| / 4) + (if |v| % 4 == 3 then 2 else if |v| % 4 == 2 then 1 else 0)
  {
    if |v| >= 4 then GroupBytes(v[0], v[1], v[2], v[3]) + DecodeValuesIntended(v[4..])
    else if |v| == 2 then [Lo8(Or(v[0] * 4, v[1] / 16))]
    else if |v| == 3 then [Lo8(Or(v[0] * 4, v[1] / 16)), Lo8(Or(v[1] * 16, v[2] / 4))]
    else []
  }

  function DecodeIntended(s: string): (r: seq<byte>)
    requires IsByteText(s)
    ensures |r| == 3 * (|s| / 4) + (if |s| % 4 == 3 then 2 else if |s| % 4 == 2 then 1 else 0)
  {
    DecodeValuesIntended(Values(s))
  }

  /** Reading back the symbols at some indices gives the indices. */
  lemma ValuesOfSymbols(idx: seq<int>)
    requires InAlphabetRange(idx)
    ensures Values(Symbols(idx)) == idx
  {
    var s := Symbols(idx);
    forall i | 0 <= i < |idx| ensures Values(s)[i] == idx[i] {
      SymbolValueInvertsAlphabet(idx[i]);
    }
  }

  /** The first decoded byte puts back the six high bits of x and the two bits that follow them. */
  lemma HighField(x: byte, lo: int)
    requires lo == x % 4
    ensures Lo8(Or((x / 4) * 4, lo)) == x
  {
    OrShl2(x / 4, x % 4);
  }

  /** Keeping the low byte drops everything above it. */
  lemma ByteAbove(q: nat, y: byte, v: int)
    requires v == q * 256 + y
    ensures Lo8(v) == y
  {
  }

  /** A 6-bit value shifted left by 4 and OR-ed with the low nibble of y gives y in the low byte when
      its own low two bits are y's high nibble... */
  lemma MiddleField(hi: nat, y: byte, lo: int)
    requires hi < 64 && hi % 16 == y / 16 && lo == y % 16
    ensures Lo8(Or(hi * 16, lo)) == y
  {
    OrShl4(hi, lo);
    var q := hi / 16;
    assert hi == q * 16 + y / 16;
    ByteAbove(q, y, hi * 16 + lo);
  }

  /** ... and shifted left by 6 and OR-ed with the low six bits of z gives z. */
  lemma LowField(hi: nat, z: byte, lo: int)
    requires hi < 64 && hi % 4 == z / 64 && lo == z % 64
    ensures Lo8(Or(hi * 64, lo)) == z
  {
    OrShl6(hi, lo);
    var q := hi / 4;
    assert hi == q * 4 + z / 64;
    ByteAbove(q, z, hi * 64 + lo);
  }

  /** Decoding the indices of a full group gives the group back. */
  lemma GroupBytesOfIndices(x: byte, y: byte, z: byte)
    ensures var r := GroupIndices(x, y, z);
      GroupBytes(r[0], r[1], r[2], r[3]) == [x, y, z]
  {
    var r1 := (x % 4) * 16 + y / 16;
    var r2 := (y % 16) * 4 + z / 64;
    HighField(x, r1 / 16);
    MiddleField(r1, y, r2 / 4);
    LowField(r2, z, z % 64);
  }

  /** The bytes the implementation recovers from an encoding of b: the full groups intact, a trailing
      single byte with its low two bits cleared, a trailing pair with the low four bits of its second
      byte cleared. */
  function LossyRecovery(b: seq<byte>): (r: seq<byte>)
  {
    var n := |b| - |b| % 3;
    if |b| % 3 == 1 then b[..n] + [b[n] - b[n] % 4]
    else if |b| % 3 == 2 then b[..n] + [b[n], b[n + 1] - b[n + 1] % 16]
    else b
  }

  lemma LossyRecoveryOfGroups(b: seq<byte>)
    requires |b| >= 3
    ensures LossyRecovery(b) == b[..3] + LossyRecovery(b[3..])
  {
    var k := |b| % 3;
    var n := |b| - k;
    var t := b[3..];
    assert |t| % 3 == k && |t| - k == n - 3;
    assert t[..n - 3] == b[3..n];
    assert b[..3] + b[3..n] == b[..n];
    if k == 0 {
      assert b == b[..3] + t;
    } else if k == 1 {
      assert t[n - 3] == b[n];
      assert LossyRecovery(t) == b[3..n] + [b[n] - b[n] % 4];
    } else {
      assert t[n - 3] == b[n] && t[n - 2] == b[n + 1];
      assert LossyRecovery(t) == b[3..n] + [b[n], b[n + 1] - b[n + 1] % 16];
    }
  }

  /** Decoding the indices of b as the implementation does recovers `LossyRecovery(b)`. */
  lemma {:induction false} DecodeValuesOfIndices(b: seq<byte>)
    ensures DecodeValues(Indices(b)) == LossyRecovery(b)
    decreases |b|
  {
    var v := Indices(b);
    if |b| >= 3 {
      assert v[4..] == Indices(b[3..]);
      GroupBytesOfIndices(b[0], b[1], b[2]);
      DecodeValuesOfIndices(b[3..]);
      LossyRecoveryOfGroups(b);
    } else if |b| == 1 {
      ByteAbove(0, b[0] - b[0] % 4, (b[0] / 4) * 4);
    } else if |b| == 2 {
      HighField(b[0], v[1] / 16);
      assert v[1] * 16 == (b[0] as int % 4) * 256 + (b[1] as int / 16) * 16;
      assert 0 <= b[1] - b[1] % 16 < 256;
      ByteAbove(b[0] % 4, b[1] - b[1] % 16, v[1] * 16);
    }
  }

  /** Decoding the indices of b with the intended tail recovers b. */
  lemma {:induction false} DecodeValuesIntendedOfIndices(b: seq<byte>)
    ensures DecodeValuesIntended(Indices(b)) == b
    decreases |b|
  {
    var v := Indices(b);
    if |b| >= 3 {
      assert v[4..] == Indices(b[3..]);
      GroupBytesOfIndices(b[0], b[1], b[2]);
      DecodeValuesIntendedOfIndices(b[3..]);
      assert b == b[..3] + b[3..];
    } else if |b| == 1 {
      HighField(b[0], v[1] / 16);
    } else if |b| == 2 {
      HighField(b[0], v[1] / 16);
      MiddleField(v[1], b[1], v[2] / 4);
    }
  }

  /** What `decode(encode(b))` gives for every b: the partial trailing group loses bits. */
  lemma DecodeEncodeLosesTailBits(b: seq<byte>)
    ensures Decode(Encode(b)) == LossyRecovery(b)
  {
    ValuesOfSymbols(Indices(b));
    DecodeValuesOfIndices(b);
  }

  /** The recovery is the input exactly when no bit is lost: when b is whole groups, or the bits the
      trailing group would lose are already zero. */
  lemma LossyRecoveryIsIdentityIff(b: seq<byte>)
    ensures LossyRecovery(b) == b <==>
      (|b| % 3 == 0 || (|b| % 3 == 1 && b[|b| - 1] % 4 == 0) || (|b| % 3 == 2 && b[|b| - 1] % 16 == 0))
  {
    var k := |b| % 3;
    var n := |b| - k;
    if k == 1 {
      TailCleared(b[..n], b[n], 4);
      assert b == b[..n] + [b[n]];
    } else if k == 2 {
      TailCleared(b[..n] + [b[n]], b[n + 1], 16);
      assert b == b[..n] + [b[n]] + [b[n + 1]];
      assert b[..n] + [b[n], b[n + 1] - b[n + 1] % 16] == b[..n] + [b[n]] + [b[n + 1] - b[n + 1] % 16];
    }
  }

  lemma TailCleared(p: seq<byte>, x: byte, m: nat)
    requires m == 4 || m == 16
    ensures 0 <= x - x % m < 256
    ensures p + [x - x % m] == p + [x] <==> x % m == 0
  {
    if x % m != 0 {
      assert (p + [x - x % m])[|p|] != (p + [x])[|p|];
    }
  }

  /** `decode(encode(b)) == b` exactly when no bit is lost. */
  lemma RoundTripIff(b: seq<byte>)
    ensures Decode(Encode(b)) == b <==>
      (|b| % 3 == 0 || (|b| % 3 == 1 && b[|b| - 1] % 4 == 0) || (|b| % 3 == 2 && b[|b| - 1] % 16 == 0))
  {
    DecodeEncodeLosesTailBits(b);
    LossyRecoveryIsIdentityIff(b);
  }

  /** `decode(encode(b)) == b` for every input whose length is a multiple of three. */
  lemma DecodeEncodeFullGroups(b: seq<byte>)
    requires |b| % 3 == 0
    ensures Decode(Encode(b)) == b
  {
    DecodeEncodeLosesTailBits(b);
  }

  /** The program's own round trip: for 7-bit input of whole groups, what the encoder as written
      produces decodes back to the input. */
  lemma SevenBitRoundTrip(b: seq<byte>)
    requires |b| % 3 == 0 && IsSevenBit(b)
    ensures EncodeAsWritten(b).Some?
    ensures IsByteText(EncodeAsWritten(b).value)
    ensures Decode(EncodeAsWritten(b).value) == b
  {
    EncodeAsWrittenDefinedIffSevenBit(b);
    DecodeEncodeFullGroups(b);
  }

  /** A one-byte input does not survive the round trip: the byte 0x01 encodes to `AQ`, which decodes
      to the byte 0x00. */
  lemma SingleByteRoundTripFails()
    ensures Encode([1]) == "AQ"
    ensures Decode("AQ") == [0]
  {
    var b: seq<byte> := [1];
    assert Indices(b) == [0, 16];
    AlphabetSymbols();
    var e := Symbols([0, 16]);
    assert e[0] == 'A' && e[1] == 'Q';
    assert e == "AQ";
    assert Values("AQ") == [0, 16];
    assert DecodeValues([0, 16]) == [0];
  }

  /** With the trailing group decoded as the encoder packs it, the round trip holds for every byte sequence. */
  lemma DecodeIntendedRoundTrip(b: seq<byte>)
    ensures DecodeIntended(Encode(b)) == b
  {
    ValuesOfSymbols(Indices(b));
    DecodeValuesIntendedOfIndices(b);
  }
}

=== FILE: bits.dfy ===
/** Integer bit operations as C++ performs them on two's-complement `int` values. */
module Bits {

  /** An octet, as an `unsigned char` holds it. */
  type byte = b: int | 0 <= b < 256

  function Pow2(k: nat): (r: nat)
    ensures r >= 1
  {
    if k == 0 then 1 else 2 * Pow2(k - 1)
  }

  function Abs(x: int): nat
  {
    if x < 0 then -x else x
  }

  /** The low eight bits of x, which is what storing an `int` into a `char` keeps. */
  function Lo8(x: int): (r: int)
    ensures 0 <= r < 256
  {
    x % 256
  }

  /** Bitwise OR of two integers read as two's-complement numbers of unbounded width.
      `x / 2` is the arithmetic right shift (Dafny's division rounds down for a positive divisor)
      and `x % 2` the lowest bit. */
  function Or(a: int, b: int): (r: int)
    ensures a >= 0 && b >= 0 ==> r >= 0
    ensures a < 0 || b < 0 ==> r < 0
    decreases Abs(a) + Abs(b)
  {
    if a == 0 then b
    else if b == 0 then a
    else if a == -1 || b == -1 then -1
    else 2 * Or(a / 2, b / 2) + (if a % 2 == 1 || b % 2 == 1 then 1 else 0)
  }

  /** OR-ing a value into bits that are clear is addition: `(hi << k) | lo == (hi << k) + lo` when lo < 2^k. */
  lemma {:induction false} OrDisjoint(hi: nat, lo: nat, k: nat)
    requires lo < Pow2(k)
    ensures Or(hi * Pow2(k), lo) == hi * Pow2(k) + lo
  {
    var a := hi * Pow2(k);
    if k == 0 {
      assert lo == 0;
    } else if a == 0 || lo == 0 {
    } else {
      assert a == 2 * (hi * Pow2(k - 1));
      assert a / 2 == hi * Pow2(k - 1) && a % 2 == 0;
      assert lo / 2 < Pow2(k - 1);
      OrDisjoint(hi, lo / 2, k - 1);
      assert Or(a, lo) == 2 * Or(a / 2, lo / 2) + lo % 2;
    }
  }
}

=== FILE: flags.dfy ===
/** The launch-flag parser: one left-to-right pass over the command-line arguments (the program name
    already removed) that picks the launch type and fills the path and ip slots. Whether a file exists
    is the file system's answer, given as the predicate `fileExists`. */
module Flags {
  import opened Wrappers

  /** `LaunchType`. */
  datatype LaunchType = Service | Receive | General

  datatype Flags = Flags(launch: LaunchType, path: string, ip: string)

  /** The member initializers of `Flags`: General, with an empty path and ip. */
  const Default := Flags(General, "", "")

  predicate StartsWith(s: string, prefix: string)
  {
    |prefix| <= |s| && s[..|prefix|] == prefix
  }

  /** An argument whose first nine characters are `--service`; what follows them does not matter. */
  predicate IsServiceFlag(arg: string)
  {
    StartsWith(arg, "--service")
  }

  predicate IsReceiveFlag(arg: string)
  {
    StartsWith(arg, "--receive")
  }

  predicate IsLaunchFlag(arg: string)
  {
    IsServiceFlag(arg) || IsReceiveFlag(arg)
  }

  /** Any other argument starting with `--`. */
  predicate IsUnknownOption(arg: string)
  {
    !IsLaunchFlag(arg) && StartsWith(arg, "--")
  }

  /** An argument not starting with `--`: a path or an address. */
  predicate IsUnnamed(arg: string)
  {
    !StartsWith(arg, "--")
  }

  /** One iteration of the loop: the flags after the argument, or the message of the error it causes. */
  function Step(f: Flags, arg: string, fileExists: string -> bool): (r: Result<Flags>)
    ensures r.Ok? && f.launch != General ==> r.value.launch == f.launch
    ensures r.Ok? && r.value.launch != f.launch ==> f.launch == General && IsLaunchFlag(arg)
    ensures r.Ok? ==> !IsUnknownOption(arg) && f.launch != Service
  {
    if IsServiceFlag(arg) then
      match f.launch
      case Service => Err("Argument \"--service\" specified more than once.")
      case Receive => Err("Argument \"--service\" is not compatible with argument \"--receive\".")
      case General => Ok(f.(launch := Service))
    else if IsReceiveFlag(arg) then
      match f.launch
      case Service => Err("Argument \"--receive\" is not compatible with argument \"--service\".")
      case Receive => Err("Argument \"--receive\" specified more than once.")
      case General => Ok(f.(launch := Receive))
    else if StartsWith(arg, "--") then Err("Unknown argument \"" + arg + "\".")
    else if f.launch == Service then Err("Launch type \"--service\" does not expect any unnamed arguments.")
    else if f.launch == Receive then Ok(f.(ip := arg))
    else if f.path == "" then
      if fileExists(arg) then Ok(f.(path := arg))
      else Err("Specified file \"" + arg + "\" does not exist.")
    else Err("Too many file arguments specified.")
  }

  /** The loop from flags f over args; the first error ends it. */
  function ParseFrom(f: Flags, args: seq<string>, fileExists: string -> bool): (r: Result<Flags>)
    ensures r.Ok? && f.launch != General ==> r.value.launch == f.launch
    ensures r.Ok? && f.launch == Service ==> |args| == 0
    decreases |args|
  {
    if |args| == 0 then Ok(f)
    else match Step(f, args[0], fileExists)
      case Err(e) => Err(e)
      case Ok(g) => ParseFrom(g, args[1..], fileExists)
  }

  /** `Flags::parse`: the loop from the defaults. An accepted parse is General exactly when no launch
      flag was given. */
  function Parse(args: seq<string>, fileExists: string -> bool): (r: Result<Flags>)
    ensures r.Ok? ==> (r.value.launch == General <==> LaunchCount(args) == 0)
  {
    var r := ParseFrom(Default, args, fileExists);
    if r.Ok? then ParseFromLaunch(Default, args, fileExists); r else r
  }

  // ---------------------------------------------------------------- reference notions

  function LaunchCount(args: seq<string>): nat
  {
    if |args| == 0 then 0 else (if IsLaunchFlag(args[0]) then 1 else 0) + LaunchCount(args[1..])
  }

  /** The arguments before the first launch flag: those read in General mode. */
  function GeneralArgs(args: seq<string>): seq<string>
  {
    if |args| == 0 || IsLaunchFlag(args[0]) then [] else [args[0]] + GeneralArgs(args[1..])
  }

  function LastOr(xs: seq<string>, d: string): string
  {
    if |xs| == 0 then d else xs[|xs| - 1]
  }

  // ---------------------------------------------------------------- properties

  /** What an accepted run says about the launch flags: none once `--service` is set, none unknown, at
      most one in all, and the resulting type is the one named; `--service` can only be last. */
  lemma {:induction false} ParseFromLaunch(f: Flags, args: seq<string>, fileExists: string -> bool)
    requires ParseFrom(f, args, fileExists).Ok?
    ensures var g := ParseFrom(f, args, fileExists).value;
      (f.launch == Service ==> |args| == 0) &&
      (forall i :: 0 <= i < |args| ==> !IsUnknownOption(args[i])) &&
      LaunchCount(args) + (if f.launch == General then 0 else 1) <= 1 &&
      (g.launch == General <==> f.launch == General && LaunchCount(args) == 0) &&
      (f.launch != General ==> g.launch == f.launch) &&
      (forall i :: 0 <= i < |args| && IsServiceFlag(args[i]) ==> g.launch == Service && i == |args| - 1) &&
      (forall i :: 0 <= i < |args| && IsReceiveFlag(args[i]) ==> g.launch == Receive)
    decreases |args|
  {
    if |args| > 0 {
      var h := Step(f, args[0], fileExists).value;
      ParseFromLaunch(h, args[1..], fileExists);
      forall i | 0 < i < |args| ensures args[1..][i - 1] == args[i] { }
    }
  }

  /** Under `--receive` every later argument is an address and the last one wins; the ip is empty
      when none follows. */
  lemma {:induction false} ParseFromReceive(f: Flags, args: seq<string>, fileExists: string -> bool)
    requires ParseFrom(f, args, fileExists).Ok?
    requires f.launch == Receive || f.ip == ""
    ensures var g := ParseFrom(f, args, fileExists).value;
      (f.launch == Receive ==> (forall i :: 0 <= i < |args| ==> IsUnnamed(args[i])) && g.ip == LastOr(args, f.ip)) &&
      (g.launch != Receive ==> g.ip == "") &&
      (forall i :: 0 <= i < |args| && IsReceiveFlag(args[i]) ==>
        (forall j :: i < j < |args| ==> IsUnnamed(args[j])) && g.ip == LastOr(args[i + 1..], ""))
    decreases |args|
  {
    if |args| > 0 {
      var h := Step(f, args[0], fileExists).value;
      ParseFromReceive(h, args[1..], fileExists);
      ParseFromLaunch(h, args[1..], fileExists);
      assert args[1..][0..] == args[1..];
      forall i | 0 < i < |args| ensures args[1..][i - 1] == args[i] && args[1..][i - 1 + 1..] == args[i + 1..] { }
      if f.launch == Receive {
        assert LastOr(args, f.ip) == LastOr(args[1..], args[0]);
      }
    }
  }

  /** In General mode the first unnamed argument becomes the path, which must exist, and a second one
      fails; the path is empty when there is none. This holds when the empty path does not exist, as
      for a real file system; otherwise an empty first argument would leave room for another. */
  lemma {:induction false} ParseFromPath(f: Flags, args: seq<string>, fileExists: string -> bool)
    requires ParseFrom(f, args, fileExists).Ok?
    requires f.launch == General && (f.path == "" || fileExists(f.path)) && !fileExists("")
    ensures var g := ParseFrom(f, args, fileExists).value;
      (f.path != "" ==> GeneralArgs(args) == [] && g.path == f.path) &&
      (f.path == "" ==> |GeneralArgs(args)| <= 1 && g.path == LastOr(GeneralArgs(args), "")) &&
      (g.path == "" || fileExists(g.path))
    decreases |args|
  {
    if |args| > 0 {
      var h := Step(f, args[0], fileExists).value;
      if IsLaunchFlag(args[0]) {
        ParseFromLaunch(h, args[1..], fileExists);
        PathKept(h, args[1..], fileExists);
      } else {
        ParseFromPath(h, args[1..], fileExists);
      }
    }
  }

  /** Outside General mode the path is never touched. */
  lemma {:induction false} PathKept(f: Flags, args: seq<string>, fileExists: string -> bool)
    requires ParseFrom(f, args, fileExists).Ok? && f.launch != General
    ensures ParseFrom(f, args, fileExists).value.path == f.path
    decreases |args|
  {
    if |args| > 0 {
      PathKept(Step(f, args[0], fileExists).value, args[1..], fileExists);
    }
  }

  /** With no arguments, the defaults come back. */
  lemma ParseNoArguments(fileExists: string -> bool)
    ensures Parse([], fileExists) == Ok(Flags(General, "", ""))
  {
  }

  /** The parse fails when `--service` or `--receive` is given twice, or both are given, in either
      order. */
  lemma TwoLaunchFlagsRejected(args: seq<string>, fileExists: string -> bool, i: nat, j: nat)
    requires i < j < |args| && IsLaunchFlag(args[i]) && IsLaunchFlag(args[j])
    ensures Parse(args, fileExists).Err?
  {
    if Parse(args, fileExists).Ok? {
      ParseFromLaunch(Default, args, fileExists);
      LaunchCountAtLeastTwo(args, i, j);
    }
  }

  lemma {:induction false} LaunchCountAtLeastTwo(args: seq<string>, i: nat, j: nat)
    requires i < j < |args| && IsLaunchFlag(args[i]) && IsLaunchFlag(args[j])
    ensures LaunchCount(args) >= 2
    decreases |args|
  {
    if i > 0 {
      LaunchCountAtLeastTwo(args[1..], i - 1, j - 1);
    } else {
      LaunchCountAtLeastOne(args[1..], j - 1);
    }
  }

  lemma {:induction false} LaunchCountAtLeastOne(args: seq<string>, j: nat)
    requires j < |args| && IsLaunchFlag(args[j])
    ensures LaunchCount(args) >= 1
    decreases |args|
  {
    if j > 0 {
      LaunchCountAtLeastOne(args[1..], j - 1);
    }
  }

  /** Any other argument starting with `--` fails the parse. */
  lemma UnknownOptionRejected(args: seq<string>, fileExists: string -> bool, i: nat)
    requires i < |args| && IsUnknownOption(args[i])
    ensures Parse(args, fileExists).Err?
  {
    if Parse(args, fileExists).Ok? {
      ParseFromLaunch(Default, args, fileExists);
    }
  }

  /** Any argument after `--service` fails the parse, an unnamed one included. */
  lemma ArgumentAfterServiceRejected(args: seq<string>, fileExists: string -> bool, i: nat, j: nat)
    requires i < j < |args| && IsServiceFlag(args[i])
    ensures Parse(args, fileExists).Err?
  {
    if Parse(args, fileExists).Ok? {
      ParseFromLaunch(Default, args, fileExists);
    }
  }

  /** An accepted run: the launch type is the flag given (General without one); a receiver's ip is
      the last argument after `--receive`; the path is the one argument before any launch flag, and
      fileExists. */
  lemma ParseAccepted(args: seq<string>, fileExists: string -> bool)
    requires Parse(args, fileExists).Ok? && !fileExists("")
    ensures var g := Parse(args, fileExists).value;
      LaunchCount(args) <= 1 &&
      (g.launch == General <==> LaunchCount(args) == 0) &&
      (forall i :: 0 <= i < |args| && IsReceiveFlag(args[i]) ==> g.launch == Receive && g.ip == LastOr(args[i + 1..], "")) &&
      (g.launch != Receive ==> g.ip == "") &&
      |GeneralArgs(args)| <= 1 && g.path == LastOr(GeneralArgs(args), "") &&
      (g.path != "" ==> fileExists(g.path))
  {
    ParseFromLaunch(Default, args, fileExists);
    ParseFromReceive(Default, args, fileExists);
    ParseFromPath(Default, args, fileExists);
  }

  /** Running over a + b is running over a and then over b from where a left off; an error in a ends
      the run. */
  lemma {:induction false} ParseFromAppend(f: Flags, a: seq<string>, b: seq<string>, fileExists: string -> bool)
    ensures ParseFrom(f, a + b, fileExists) ==
      match ParseFrom(f, a, fileExists)
      case Err(e) => Err(e)
      case Ok(g) => ParseFrom(g, b, fileExists)
    decreases |a|
  {
    if |a| == 0 {
      assert a + b == b;
    } else {
      assert (a + b)[0] == a[0] && (a + b)[1..] == a[1..] + b;
      match Step(f, a[0], fileExists)
      case Err(_) =>
      case Ok(h) => ParseFromAppend(h, a[1..], b, fileExists);
    }
  }

  /** After an accepted prefix, an argument whose step fails ends the parse with that step's message,
      whatever follows it. */
  lemma FailingStep(pre: seq<string>, arg: string, post: seq<string>, fileExists: string -> bool)
    requires ParseFrom(Default, pre, fileExists).Ok?
    requires Step(ParseFrom(Default, pre, fileExists).value, arg, fileExists).Err?
    ensures Parse(pre + [arg] + post, fileExists) == Step(ParseFrom(Default, pre, fileExists).value, arg, fileExists)
  {
    assert pre + [arg] + post == pre + ([arg] + post);
    ParseFromAppend(Default, pre, [arg] + post, fileExists);
    assert ([arg] + post)[0] == arg && ([arg] + post)[1..] == post;
  }

  /** No argument is both launch flags, and an unnamed argument is neither. */
  lemma FlagsDistinct(arg: string)
    ensures !(IsServiceFlag(arg) && IsReceiveFlag(arg))
    ensures IsUnnamed(arg) ==> !IsLaunchFlag(arg)
  {
    if IsServiceFlag(arg) {
      assert arg[..2] == "--service"[..2] && arg[2] == "--service"[2] != "--receive"[2];
    }
    if IsReceiveFlag(arg) {
      assert arg[..2] == "--receive"[..2];
    }
  }

  /** The messages for a launch flag that follows an accepted launch flag: the same one again, or
      the other one. */
  lemma LaunchConflictMessages(pre: seq<string>, i: nat, arg: string, post: seq<string>, fileExists: string -> bool)
    requires ParseFrom(Default, pre, fileExists).Ok? && i < |pre| && IsLaunchFlag(pre[i])
    ensures IsServiceFlag(pre[i]) && IsServiceFlag(arg) ==>
      Parse(pre + [arg] + post, fileExists) == Err("Argument \"--service\" specified more than once.")
    ensures IsReceiveFlag(pre[i]) && IsServiceFlag(arg) ==>
      Parse(pre + [arg] + post, fileExists) == Err("Argument \"--service\" is not compatible with argument \"--receive\".")
    ensures IsServiceFlag(pre[i]) && IsReceiveFlag(arg) ==>
      Parse(pre + [arg] + post, fileExists) == Err("Argument \"--receive\" is not compatible with argument \"--service\".")
    ensures IsReceiveFlag(pre[i]) && IsReceiveFlag(arg) ==>
      Parse(pre + [arg] + post, fileExists) == Err("Argument \"--receive\" specified more than once.")
  {
    ParseFromLaunch(Default, pre, fileExists);
    FlagsDistinct(pre[i]);
    FlagsDistinct(arg);
    if IsLaunchFlag(arg) {
      FailingStep(pre, arg, post, fileExists);
    }
  }

  /** After an accepted prefix, an unknown option fails the parse with a message naming it. */
  lemma UnknownOptionMessage(pre: seq<string>, arg: string, post: seq<string>, fileExists: string -> bool)
    requires ParseFrom(Default, pre, fileExists).Ok? && IsUnknownOption(arg)
    ensures Parse(pre + [arg] + post, fileExists) == Err("Unknown argument \"" + arg + "\".")
  {
    FailingStep(pre, arg, post, fileExists);
  }

  /** After an accepted `--service`, an unnamed argument fails the parse with the service message. */
  lemma ServiceArgumentMessage(pre: seq<string>, i: nat, arg: string, post: seq<string>, fileExists: string -> bool)
    requires ParseFrom(Default, pre, fileExists).Ok? && i < |pre| && IsServiceFlag(pre[i]) && IsUnnamed(arg)
    ensures Parse(pre + [arg] + post, fileExists) == Err("Launch type \"--service\" does not expect any unnamed arguments.")
  {
    ParseFromLaunch(Default, pre, fileExists);
    FlagsDistinct(arg);
    FailingStep(pre, arg, post, fileExists);
  }

  /** A first unnamed argument naming no existing file fails the parse with a message naming it. */
  lemma MissingFileMessage(p: string, post: seq<string>, fileExists: string -> bool)
    requires IsUnnamed(p) && !fileExists(p)
    ensures Parse([p] + post, fileExists) == Err("Specified file \"" + p + "\" does not exist.")
  {
    FlagsDistinct(p);
    assert [] + [p] + post == [p] + post;
    FailingStep([], p, post, fileExists);
  }

  /** A second unnamed argument after an existing file fails the parse. */
  lemma TooManyFilesMessage(p: string, q: string, post: seq<string>, fileExists: string -> bool)
    requires IsUnnamed(p) && p != "" && fileExists(p) && IsUnnamed(q)
    ensures Parse([p, q] + post, fileExists) == Err("Too many file arguments specified.")
  {
    FlagsDistinct(p);
    FlagsDistinct(q);
    assert ParseFrom(Default, [p], fileExists) == Ok(Default.(path := p)) by {
      assert [p][1..] == [];
    }
    assert [p] + [q] + post == [p, q] + post;
    FailingStep([p], q, post, fileExists);
  }
}

=== FILE: json.dfy ===
/** The wire envelope: the magic `squirrel` followed by a property tree written as
    `{name:value,...}`, where a value is a `"raw string"` or a nested object.

    Parsing works on the rest of the input, the way the implementation reads a `std::stringstream`:
    each parse returns the node it read and the input that follows it, or None for the null pointer
    the implementation returns on malformed input. */
module Json {
  import opened Wrappers

  /** A property tree: a leaf string, or an object mapping unique property names to nodes. */
  datatype Node = Str(text: string) | Obj(props: map<string, Node>)

  /** A deserialized envelope; its tree is None when the magic and `{` were present but the body was not
      well-formed. */
  datatype Message = Message(data: Option<Node>)

  const Magic: string := "squirrel"

  /** t is what is left of s after a parse that consumed at least one character. */
  predicate IsRestOf(t: string, s: string)
  {
    |t| < |s| && t == s[|s| - |t|..]
  }

  /** The position of the first c in s, if any. */
  function IndexOf(s: string, c: char): (r: Option<nat>)
    ensures r.None? <==> c !in s
    ensures r.Some? ==> r.value < |s| && s[r.value] == c && c !in s[..r.value]
  {
    if |s| == 0 then None
    else if s[0] == c then Some(0)
    else match IndexOf(s[1..], c)
      case None => None
      case Some(i) =>
        assert s[..i + 1] == [s[0]] + s[1..][..i];
        Some(i + 1)
  }

  // ---------------------------------------------------------------- parse

  /** Reads a string node starting at its opening quote: the characters up to the next `"`, taken
      verbatim; fails when no closing quote follows. */
  function ParseString(s: string): (r: Option<(Node, string)>)
    requires |s| > 0 && s[0] == '"'
    ensures r.None? <==> '"' !in s[1..]
    ensures r.Some? ==> r.value.0.Str? && '"' !in r.value.0.text
    ensures r.Some? ==> s == "\"" + r.value.0.text + "\"" + r.value.1
    ensures r.Some? ==> IsRestOf(r.value.1, s) && s[|s| - |r.value.1| - 1] == '"'
  {
    match IndexOf(s[1..], '"')
    case None => None
    case Some(j) =>
      var text, rest := s[1..1 + j], s[j + 2..];
      assert text == s[1..][..j];
      assert s == "\"" + text + "\"" + rest by {
        assert s == [s[0]] + text + [s[j + 1]] + rest;
      }
      assert rest == s[|s| - |rest|..];
      Some((Str(text), rest))
  }

  /** Reads an object starting at its `{`. */
  function ParseObject(s: string): (r: Option<(Node, string)>)
    requires |s| > 0 && s[0] == '{'
    ensures r.Some? ==> r.value.0.Obj? && IsRestOf(r.value.1, s)
    ensures r.Some? ==> s[|s| - |r.value.1| - 1] == '}'
    decreases |s|, 1
  {
    var r := ParseMembers(s[1..], map[]);
    assert r.Some? ==> IsRestOf(r.value.1, s) && s[|s| - |r.value.1| - 1] == '}' by {
      if r.Some? {
        RestOfTail(r.value.1, s);
      }
    }
    r
  }

  /** What is left of the input after its first character is what is left of the input. */
  lemma RestOfTail(t: string, s: string)
    requires |s| > 0 && IsRestOf(t, s[1..])
    ensures IsRestOf(t, s) && s[|s| - |t| - 1] == s[1..][|s| - 1 - |t| - 1]
  {
    assert s[1..][|s| - 1 - |t|..] == s[|s| - |t|..];
  }

  /** Reads the properties of an object after its `{` or after a `,`, adding them to those read so far
      (acc), up to and including the closing `}`. A name is everything up to the next `:`; a name
      already read fails the parse, as do a value that starts with neither `"` nor `{`, a value
      followed by neither `,` nor `}`, and the end of the input before the `}`. */
  function ParseMembers(s: string, acc: map<string, Node>): (r: Option<(Node, string)>)
    ensures r.Some? ==> r.value.0.Obj? && IsRestOf(r.value.1, s)
    ensures r.Some? ==> s[|s| - |r.value.1| - 1] == '}'
    ensures r.Some? ==> acc.Keys <= r.value.0.props.Keys
    decreases |s|, 0
  {
    if |s| == 0 then None
    else if s[0] == '}' then Some((Obj(acc), s[1..]))
    else match IndexOf(s, ':')
      case None => None
      case Some(j) =>
        var name := s[..j];
        if name in acc then None
        else
          match ParseValue(s[j + 1..])
          case None => None
          case Some((node, rest)) =>
            if |rest| > 0 && rest[0] == ',' then ParseMembers(rest[1..], acc[name := node])
            else if |rest| > 0 && rest[0] == '}' then Some((Obj(acc[name := node]), rest[1..]))
            else None
  }

  /** Reads a value: a string if it starts with `"`, an object if it starts with `{`, and nothing
      otherwise. */
  function ParseValue(v: string): (r: Option<(Node, string)>)
    ensures r.Some? ==> IsRestOf(r.value.1, v)
    ensures r.Some? <==> (|v| > 0 && v[0] == '"' && ParseString(v).Some?) || (|v| > 0 && v[0] == '{' && ParseObject(v).Some?)
    decreases |v|, 2
  {
    if |v| > 0 && v[0] == '"' then ParseString(v)
    else if |v| > 0 && v[0] == '{' then ParseObject(v)
    else None
  }

  /** Deserializes an envelope. No message unless the input starts with exactly the eight characters
      `squirrel` followed by `{`; after that a message always comes back, holding None when the object
      does not parse. Input after the object's closing brace is ignored. */
  function Deserialize(s: string): (r: Option<Message>)
    ensures r.Some? <==> |s| > 8 && s[..8] == Magic && s[8] == '{'
    ensures r.Some? ==> (r.value.data.None? <==> ParseObject(s[8..]).None?)
    ensures r.Some? && r.value.data.Some? ==> r.value.data.value.Obj?
  {
    if |s| < 8 || s[..8] != Magic then None
    else if |s| == 8 || s[8] != '{' then None
    else match ParseObject(s[8..])
      case None => Some(Message(None))
      case Some((tree, _)) => Some(Message(Some(tree)))
  }

  // ---------------------------------------------------------------- lookup

  /** `getProperty`: the named child of an object; an empty object when there is no such property
      (a string has no properties). */
  function GetProperty(n: Node, name: string): (r: Node)
    ensures n.Obj? && name in n.props ==> r == n.props[name]
    ensures !(n.Obj? && name in n.props) ==> r == Obj(map[])
  {
    if n.Obj? && name in n.props then n.props[name] else Obj(map[])
  }

  /** `asString`: the text of a string node, nothing for an object. */
  function AsString(n: Node): (r: Option<string>)
    ensures r.Some? <==> n.Str?
    ensures r.Some? ==> r.value == n.text
  {
    match n
    case Str(t) => Some(t)
    case Obj(_) => None
  }

  // ---------------------------------------------------------------- serialize

  predicate NoDuplicates(ks: seq<string>)
  {
    forall i, j :: 0 <= i < j < |ks| ==> ks[i] != ks[j]
  }

  /** The order in which the properties of an object are written: the implementation iterates an
      `unordered_map`, whose order is unspecified, so this is some enumeration of the names. */
  ghost function IterationOrder(names: set<string>): (r: seq<string>)
    ensures NoDuplicates(r)
    ensures forall k :: k in names <==> k in r
    decreases names
  {
    if names == {} then []
    else
      var k :| k in names;
      var rest := IterationOrder(names - {k});
      [k] + rest
  }

  /** Writes a node: a string in quotes, an object as `{name:value,...}` with its properties in
      iteration order. Nothing is escaped. */
  ghost function Serialize(n: Node): (r: string)
    ensures |r| >= 2 && (n.Str? <==> r[0] == '"') && (n.Obj? <==> r[0] == '{')
    ensures r[|r| - 1] == (if n.Str? then '"' else '}')
    decreases n, 1, 0
  {
    match n
    case Str(t) => "\"" + t + "\""
    case Obj(m) => "{" + SerializeProps(m, IterationOrder(m.Keys)) + "}"
  }

  /** Writes the properties ks of m as `name:value` separated by commas. */
  ghost function SerializeProps(m: map<string, Node>, ks: seq<string>): string
    requires forall i :: 0 <= i < |ks| ==> ks[i] in m
    decreases Obj(m), 0, |ks|
  {
    if |ks| == 0 then ""
    else
      var pair := ks[0] + ":" + Serialize(m[ks[0]]);
      if |ks| == 1 then pair else pair + "," + SerializeProps(m, ks[1..])
  }

  /** Writes an envelope: the magic, then its tree. */
  ghost function SerializeMessage(tree: Node): (r: string)
    ensures |r| > 8 && r[..8] == Magic && (r[8] == '{' <==> tree.Obj?)
  {
    Magic + Serialize(tree)
  }

  /** A name the parser reads back as written: no `:` in it, and it does not start with `}`. */
  predicate NameEncodable(name: string)
  {
    ':' !in name && (|name| == 0 || name[0] != '}')
  }

  /** A tree the serializer writes so that it parses back to itself: every name encodable and no string
      containing `"`. */
  predicate Encodable(n: Node)
    decreases n
  {
    match n
    case Str(t) => '"' !in t
    case Obj(m) => forall k :: k in m ==> NameEncodable(k) && Encodable(m[k])
  }

  /** The properties of m named in ks. */
  function Restrict(m: map<string, Node>, ks: seq<string>): map<string, Node>
    requires forall i :: 0 <= i < |ks| ==> ks[i] in m
  {
    map k | k in ks :: m[k]
  }

  // ---------------------------------------------------------------- properties

  /** The first c in a + b is the first character of b when a holds none. */
  lemma {:induction false} IndexOfPrefix(a: string, b: string, c: char)
    requires c !in a && |b| > 0 && b[0] == c
    ensures IndexOf(a + b, c) == Some(|a|)
  {
    if |a| > 0 {
      assert (a + b)[0] == a[0];
      assert (a + b)[1..] == a[1..] + b;
      IndexOfPrefix(a[1..], b, c);
    }
  }

  /** A quoted string with no quote inside reads back as its text. */
  lemma ParseQuoted(t: string, rest: string)
    requires '"' !in t
    ensures ParseValue("\"" + t + "\"" + rest) == Some((Str(t), rest))
  {
    var s := "\"" + t + "\"" + rest;
    assert s[1..] == t + ("\"" + rest);
    IndexOfPrefix(t, "\"" + rest, '"');
    assert s[1..1 + |t|] == t;
    assert s[|t| + 2..] == rest;
  }

  /** Parsing what `Serialize` writes for an encodable node, followed by anything, reads the node back
      and stops right after it. */
  lemma {:induction false} ParseSerialized(n: Node, rest: string)
    requires Encodable(n)
    ensures ParseValue(Serialize(n) + rest) == Some((n, rest))
    decreases n, 1, 0
  {
    match n
    case Str(t) =>
      ParseQuoted(t, rest);
    case Obj(m) =>
      var ks := IterationOrder(m.Keys);
      var body := SerializeProps(m, ks) + "}" + rest;
      assert Serialize(n) + rest == "{" + body;
      ParseBraced(body);
      ParseSerializedProps(m, ks, map[], rest);
      RestrictAll(m, ks);
  }

  /** Restricting to an enumeration of all its names leaves a map as it is. */
  lemma RestrictAll(m: map<string, Node>, ks: seq<string>)
    requires forall k :: k in m <==> k in ks
    ensures map[] + Restrict(m, ks) == m
  {
  }

  /** Nothing is added by an empty restriction. */
  lemma RestrictNone(m: map<string, Node>, ks: seq<string>, acc: map<string, Node>)
    requires |ks| == 0
    ensures acc + Restrict(m, ks) == acc
  {
  }

  /** A value starting with `{` is read as the members that follow it. */
  lemma ParseBraced(body: string)
    ensures ParseValue("{" + body) == ParseMembers(body, map[])
  {
    assert ("{" + body)[1..] == body;
  }

  /** One property `name:value` read, the parse goes on after the comma that follows it. */
  lemma MemberThenComma(k: string, x: string, acc: map<string, Node>, node: Node, t: string)
    requires NameEncodable(k) && k !in acc
    requires ParseValue(x) == Some((node, "," + t))
    ensures ParseMembers(k + ":" + x, acc) == ParseMembers(t, acc[k := node])
  {
    MemberName(k, x);
    assert ("," + t)[0] == ',' && ("," + t)[1..] == t;
    MembersAfterValue(k + ":" + x, acc, |k|, node, "," + t);
  }

  /** One property `name:value` read, the parse ends at the brace that follows it. */
  lemma MemberThenBrace(k: string, x: string, acc: map<string, Node>, node: Node, rest: string)
    requires NameEncodable(k) && k !in acc
    requires ParseValue(x) == Some((node, "}" + rest))
    ensures ParseMembers(k + ":" + x, acc) == Some((Obj(acc[k := node]), rest))
  {
    MemberName(k, x);
    assert ("}" + rest)[0] == '}' && ("}" + rest)[1..] == rest;
    MembersAfterValue(k + ":" + x, acc, |k|, node, "}" + rest);
  }

  /** The name of a property is read up to its colon, and the value right after it. */
  lemma MemberName(k: string, x: string)
    requires NameEncodable(k)
    ensures var s := k + ":" + x;
      s[0] != '}' && IndexOf(s, ':') == Some(|k|) && s[..|k|] == k && s[|k| + 1..] == x
  {
    var s := k + ":" + x;
    assert s == k + (":" + x);
    IndexOfPrefix(k, ":" + x, ':');
  }

  /** The first of several serialized properties, split off. */
  lemma SerializePropsHead(m: map<string, Node>, ks: seq<string>, rest: string)
    requires forall i :: 0 <= i < |ks| ==> ks[i] in m
    requires |ks| > 0
    ensures SerializeProps(m, ks) + "}" + rest ==
      ks[0] + ":" + (Serialize(m[ks[0]]) + (if |ks| == 1 then "}" + rest else "," + (SerializeProps(m, ks[1..]) + "}" + rest)))
  {
  }

  /** Restricting to ks adds the head of ks to the restriction to its tail. */
  lemma RestrictHead(m: map<string, Node>, ks: seq<string>, acc: map<string, Node>)
    requires forall i :: 0 <= i < |ks| ==> ks[i] in m
    requires |ks| > 0
    ensures acc[ks[0] := m[ks[0]]] + Restrict(m, ks[1..]) == acc + Restrict(m, ks)
  {
    var l := acc[ks[0] := m[ks[0]]] + Restrict(m, ks[1..]);
    var r := acc + Restrict(m, ks);
    forall k | k in l ensures k in r && l[k] == r[k] {
      if k in ks[1..] {
        var i :| 0 <= i < |ks[1..]| && ks[1..][i] == k;
        assert ks[i + 1] == k;
      }
    }
    forall k | k in r ensures k in l {
      if k in ks && k != ks[0] {
        var i :| 0 <= i < |ks| && ks[i] == k;
        assert ks[1..][i - 1] == k;
      }
    }
  }

  /** Parsing the serialized properties ks of m after the properties acc already read adds exactly
      those properties and stops after the closing brace. */
  lemma {:induction false} ParseSerializedProps(m: map<string, Node>, ks: seq<string>, acc: map<string, Node>, rest: string)
    requires forall i :: 0 <= i < |ks| ==> ks[i] in m && ks[i] !in acc
    requires NoDuplicates(ks)
    requires Encodable(Obj(m))
    ensures ParseMembers(SerializeProps(m, ks) + "}" + rest, acc) == Some((Obj(acc + Restrict(m, ks)), rest))
    decreases Obj(m), 0, |ks|
  {
    if |ks| == 0 {
      var s := SerializeProps(m, ks) + "}" + rest;
      assert s == "}" + rest;
      assert s[1..] == rest;
      RestrictNone(m, ks, acc);
    } else {
      var k := ks[0];
      var v := m[k];
      var s := SerializeProps(m, ks) + "}" + rest;
      if |ks| == 1 {
        assert ParseMembers(s, acc) == Some((Obj(acc[k := v]), rest)) by {
          assert NameEncodable(k) && Encodable(v);
          SerializePropsHead(m, ks, rest);
          ParseSerialized(v, "}" + rest);
          MemberThenBrace(k, Serialize(v) + ("}" + rest), acc, v, rest);
        }
        RestrictNone(m, ks[1..], acc[k := v]);
      } else {
        var t := SerializeProps(m, ks[1..]) + "}" + rest;
        assert ParseMembers(s, acc) == ParseMembers(t, acc[k := v]) by {
          assert NameEncodable(k) && Encodable(v);
          SerializePropsHead(m, ks, rest);
          ParseSerialized(v, "," + t);
          MemberThenComma(k, Serialize(v) + ("," + t), acc, v, t);
        }
        ParseSerializedProps(m, ks[1..], acc[k := v], rest);
      }
      RestrictHead(m, ks, acc);
    }
  }

  /** The envelope round trip: deserializing what `Serialize` writes for an encodable tree gives a
      message holding an equal tree, property order notwithstanding. */
  lemma DeserializeSerialized(tree: Node, trailer: string)
    requires tree.Obj? && Encodable(tree)
    ensures Deserialize(SerializeMessage(tree) + trailer) == Some(Message(Some(tree)))
  {
    var body := Serialize(tree) + trailer;
    assert SerializeMessage(tree) + trailer == Magic + body;
    SliceOfAppend(Magic, body, 8);
    assert body[0] == '{';
    ParseSerialized(tree, trailer);
  }

  /** Properties written `name:value,` one after another. */
  ghost function Members(ps: seq<(string, Node)>): string
  {
    if |ps| == 0 then "" else ps[0].0 + ":" + Serialize(ps[0].1) + "," + Members(ps[1..])
  }

  /** Once a name has been read, the object fails when the name comes again, however many
      properties lie in between. */
  lemma {:induction false} RepeatedNameRejected(ps: seq<(string, Node)>, k: string, y: string, acc: map<string, Node>)
    requires NameEncodable(k) && k in acc
    requires forall i :: 0 <= i < |ps| ==> NameEncodable(ps[i].0) && Encodable(ps[i].1)
    ensures ParseMembers(Members(ps) + (k + ":" + y), acc) == None
    decreases |ps|
  {
    var again := k + ":" + y;
    if |ps| == 0 {
      assert Members(ps) + again == again;
      MemberName(k, y);
    } else {
      var name, node := ps[0].0, ps[0].1;
      var t := Members(ps[1..]) + again;
      var x := Serialize(node) + ("," + t);
      MembersHead(ps, again);
      if name in acc {
        assert ParseMembers(name + ":" + x, acc) == None by {
          MemberName(name, x);
        }
      } else {
        assert ParseMembers(name + ":" + x, acc) == ParseMembers(t, acc[name := node]) by {
          ParseSerialized(node, "," + t);
          MemberThenComma(name, x, acc, node, t);
        }
        RepeatedNameRejected(ps[1..], k, y, acc[name := node]);
      }
    }
  }

  /** The first of several written properties, split off. */
  lemma MembersHead(ps: seq<(string, Node)>, tail: string)
    requires |ps| > 0
    ensures Members(ps) + tail == ps[0].0 + ":" + (Serialize(ps[0].1) + ("," + (Members(ps[1..]) + tail)))
  {
    Regroup(ps[0].0, Serialize(ps[0].1), Members(ps[1..]), tail);
  }

  /** A property, a comma and what follows, regrouped from the right. */
  lemma Regroup(name: string, value: string, later: string, tail: string)
    ensures name + ":" + value + "," + later + tail == name + ":" + (value + ("," + (later + tail)))
  {
  }

  /** A name that comes again later in the same object, after any properties in between, fails the
      whole object. */
  lemma DuplicateNameRejected(k: string, x: string, ps: seq<(string, Node)>, y: string, acc: map<string, Node>, node: Node)
    requires NameEncodable(k) && k !in acc
    requires forall i :: 0 <= i < |ps| ==> NameEncodable(ps[i].0) && Encodable(ps[i].1)
    requires ParseValue(x) == Some((node, "," + (Members(ps) + (k + ":" + y))))
    ensures ParseMembers(k + ":" + x, acc) == None
  {
    MemberThenComma(k, x, acc, node, Members(ps) + (k + ":" + y));
    RepeatedNameRejected(ps, k, y, acc[k := node]);
  }

  /** An envelope whose object names one property twice, with any properties in between, still
      deserializes, but holds no tree. */
  lemma DuplicateNameGivesEmptyMessage(k: string, x: string, ps: seq<(string, Node)>, y: string, node: Node)
    requires NameEncodable(k)
    requires forall i :: 0 <= i < |ps| ==> NameEncodable(ps[i].0) && Encodable(ps[i].1)
    requires ParseValue(x) == Some((node, "," + (Members(ps) + (k + ":" + y))))
    ensures Deserialize(Magic + ("{" + (k + ":" + x))) == Some(Message(None))
  {
    DuplicateNameRejected(k, x, ps, y, map[], node);
    EnvelopeOfBody(k + ":" + x);
  }

  /** An envelope whose members do not parse holds no tree. */
  lemma EnvelopeOfBody(body: string)
    requires ParseMembers(body, map[]) == None
    ensures Deserialize(Magic + ("{" + body)) == Some(Message(None))
  {
    var s := Magic + ("{" + body);
    assert s[..8] == Magic && s[8..] == "{" + body;
    assert ("{" + body)[1..] == body;
  }

  /** A comma directly before the closing brace is accepted, and closes the object. */
  lemma TrailingCommaAccepted(k: string, x: string, acc: map<string, Node>, node: Node, rest: string)
    requires NameEncodable(k) && k !in acc
    requires ParseValue(x) == Some((node, ",}" + rest))
    ensures ParseMembers(k + ":" + x, acc) == Some((Obj(acc[k := node]), rest))
  {
    assert ",}" + rest == "," + ("}" + rest);
    MemberThenComma(k, x, acc, node, "}" + rest);
    assert ("}" + rest)[1..] == rest;
  }

  /** A value that starts with neither `"` nor `{` fails the object. */
  lemma BadValueRejected(k: string, x: string, acc: map<string, Node>)
    requires NameEncodable(k) && k !in acc
    requires |x| == 0 || (x[0] != '"' && x[0] != '{')
    ensures ParseMembers(k + ":" + x, acc) == None
  {
    MemberName(k, x);
  }

  /** A value followed by neither `,` nor `}` (or by nothing) fails the object. */
  lemma BadSeparatorRejected(k: string, x: string, acc: map<string, Node>, node: Node, r: string)
    requires NameEncodable(k) && k !in acc
    requires ParseValue(x) == Some((node, r))
    requires |r| == 0 || (r[0] != ',' && r[0] != '}')
    ensures ParseMembers(k + ":" + x, acc) == None
  {
    MemberName(k, x);
  }

  /** Input that ends inside a property name, before its colon, fails the object. */
  lemma MissingColonRejected(s: string, acc: map<string, Node>)
    requires |s| > 0 && s[0] != '}' && ':' !in s
    ensures ParseMembers(s, acc) == None
  {
  }

  /** An object never closed by a `}` leaves the message without a tree. */
  lemma UnclosedObjectRejected(s: string)
    requires Deserialize(s).Some? && '}' !in s
    ensures Deserialize(s).value.data.None?
  {
  }

  /** A character found in s is found at the same place in any extension of s. */
  lemma {:induction false} IndexOfExtend(s: string, w: string, c: char)
    requires IndexOf(s, c).Some?
    ensures IndexOf(s + w, c) == IndexOf(s, c)
  {
    if s[0] != c {
      assert (s + w)[0] == s[0] && (s + w)[1..] == s[1..] + w;
      IndexOfExtend(s[1..], w, c);
    }
  }

  /** Slicing s + w within s. */
  lemma SliceOfAppend(s: string, w: string, i: nat)
    requires i <= |s|
    ensures (s + w)[..i] == s[..i] && (s + w)[i..] == s[i..] + w
    ensures i < |s| ==> (s + w)[i] == s[i]
  {
  }

  /** A string read from s reads the same from any extension of s, which only lengthens the rest. */
  lemma StringExtend(s: string, w: string, n: Node, r: string)
    requires |s| > 0 && s[0] == '"' && ParseString(s) == Some((n, r))
    ensures ParseString(s + w) == Some((n, r + w))
  {
    var j := IndexOf(s[1..], '"').value;
    SliceOfAppend(s, w, 1);
    assert IndexOf((s + w)[1..], '"') == Some(j) by {
      IndexOfExtend(s[1..], w, '"');
    }
    SliceOfAppend(s, w, j + 2);
    InnerSliceOfAppend(s, w, 1, 1 + j);
  }

  /** Slicing s + w strictly within s. */
  lemma InnerSliceOfAppend(s: string, w: string, i: nat, k: nat)
    requires i <= k <= |s|
    ensures (s + w)[i..k] == s[i..k]
  {
  }

  /** A value read from v reads the same from any extension of v: the parser never looks past what it
      consumes. */
  lemma {:induction false} ValueExtend(v: string, w: string)
    requires ParseValue(v).Some?
    ensures ParseValue(v + w) == Some((ParseValue(v).value.0, ParseValue(v).value.1 + w))
    decreases |v|, 1
  {
    assert (v + w)[0] == v[0];
    if v[0] == '"' {
      StringExtend(v, w, ParseValue(v).value.0, ParseValue(v).value.1);
    } else {
      assert (v + w)[1..] == v[1..] + w;
      var r := ParseMembers(v[1..], map[]).value;
      MembersExtend(v[1..], map[], w, r.0, r.1);
    }
  }

  /** One property read: what `ParseMembers` does after the name and the value of a property. */
  lemma MembersAfterValue(s: string, acc: map<string, Node>, j: nat, node: Node, rest: string)
    requires |s| > 0 && s[0] != '}' && IndexOf(s, ':') == Some(j) && s[..j] !in acc
    requires ParseValue(s[j + 1..]) == Some((node, rest))
    ensures ParseMembers(s, acc) ==
      if |rest| > 0 && rest[0] == ',' then ParseMembers(rest[1..], acc[s[..j] := node])
      else if |rest| > 0 && rest[0] == '}' then Some((Obj(acc[s[..j] := node]), rest[1..]))
      else None
  {
  }

  /** Parsing members keeps every property read before, name and value. */
  lemma {:induction false} MembersKeepRead(s: string, acc: map<string, Node>)
    requires ParseMembers(s, acc).Some?
    ensures forall k :: k in acc ==> k in ParseMembers(s, acc).value.0.props && ParseMembers(s, acc).value.0.props[k] == acc[k]
    decreases |s|
  {
    if s[0] != '}' {
      var j := IndexOf(s, ':').value;
      var name, v := s[..j], s[j + 1..];
      var node, rest := ParseValue(v).value.0, ParseValue(v).value.1;
      assert name !in acc;
      MembersAfterValue(s, acc, j, node, rest);
      if rest[0] == ',' {
        MembersKeepRead(rest[1..], acc[name := node]);
      }
    }
  }

  /** Members read from s read the same from any extension of s. */
  lemma {:induction false} MembersExtend(s: string, acc: map<string, Node>, w: string, n: Node, r: string)
    requires ParseMembers(s, acc) == Some((n, r))
    ensures ParseMembers(s + w, acc) == Some((n, r + w))
    decreases |s|, 1
  {
    assert (s + w)[0] == s[0];
    if s[0] == '}' {
      assert (s + w)[1..] == s[1..] + w;
    } else {
      var j := IndexOf(s, ':').value;
      PropertyExtend(s, acc, w, j, n, r);
    }
  }

  /** The property that starts s, read from an extension of s, leads to the same object. */
  lemma {:induction false} PropertyExtend(s: string, acc: map<string, Node>, w: string, j: nat, n: Node, r: string)
    requires ParseMembers(s, acc) == Some((n, r)) && s[0] != '}' && IndexOf(s, ':') == Some(j)
    ensures ParseMembers(s + w, acc) == Some((n, r + w))
    decreases |s|, 0
  {
    var name, v := s[..j], s[j + 1..];
    var node, rest := ParseValue(v).value.0, ParseValue(v).value.1;
    assert name !in acc;
    MembersAfterValue(s, acc, j, node, rest);
    assert IndexOf(s + w, ':') == Some(j) by {
      IndexOfExtend(s, w, ':');
    }
    SliceOfAppend(s, w, j);
    SliceOfAppend(s, w, j + 1);
    assert ParseValue(v + w) == Some((node, rest + w)) by {
      ValueExtend(v, w);
    }
    SliceOfAppend(rest, w, 1);
    MembersAfterValue(s + w, acc, j, node, rest + w);
    if rest[0] == ',' {
      MembersExtend(rest[1..], acc[name := node], w, n, r);
    }
  }

  /** A serialized node cut short does not parse as a value. */
  lemma CutValueFails(body: string, tree: Node, n: nat)
    requires Encodable(tree) && body == Serialize(tree) && 0 < n < |body|
    ensures ParseValue(body[..n]).None?
  {
    var cut, tail := body[..n], body[n..];
    if ParseValue(cut).Some? {
      assert cut + tail == body && body + "" == body;
      ValueExtend(cut, tail);
      ParseSerialized(tree, "");
    }
  }

  /** An envelope cut short anywhere after its `{` still deserializes, but holds no tree; cut any
      earlier, it is no message at all. */
  lemma TruncatedMessageRejected(tree: Node, k: nat)
    requires tree.Obj? && Encodable(tree) && k < |SerializeMessage(tree)|
    ensures var r := Deserialize(SerializeMessage(tree)[..k]);
      (r.Some? <==> k > 8) && (r.Some? ==> r.value.data.None?)
  {
    var m := SerializeMessage(tree);
    var body := Serialize(tree);
    assert m == Magic + body;
    var t := m[..k];
    if k > 8 {
      var cut := body[..k - 8];
      assert t[..8] == Magic && t[8..] == cut && t[8] == '{';
      assert ParseObject(cut).None? by {
        CutValueFails(body, tree, k - 8);
      }
    } else {
      assert |t| <= 8 && (|t| == 8 ==> t == Magic);
    }
  }

  /** After a round trip, a string property reads back as its text, and a missing property reads as
      an empty object, which has no text. */
  lemma PropertyAfterRoundTrip(tree: Node, trailer: string, name: string)
    requires tree.Obj? && Encodable(tree)
    ensures var r := Deserialize(SerializeMessage(tree) + trailer);
      r.Some? && r.value.data.Some? &&
      (name in tree.props && tree.props[name].Str? ==> AsString(GetProperty(r.value.data.value, name)) == Some(tree.props[name].text)) &&
      (name !in tree.props ==> AsString(GetProperty(r.value.data.value, name)) == None)
  {
    DeserializeSerialized(tree, trailer);
  }
}

=== FILE: mailbox.dfy ===
/** The cross-process mailbox of the service manager (POSIX variant). There are two channels, one read
    by the service and one read by the application; each is a message file plus a semaphore whose
    value counts the records written and not yet read. With the file locks and the operating system
    abstracted away, a channel is its byte store and its counter, and all system calls succeed.

    A record starts with a 4-byte header: byte 0 is its kind, bytes 2-3 its total length as a
    little-endian 16-bit number. */
module Mailbox {
  import opened Bits
  import opened Wrappers

  /** `MessageType`: which of the two channels. */
  datatype Kind = Service | Application

  /** A message file's bytes and its semaphore's value. */
  datatype Channel = Channel(store: seq<byte>, count: nat)

  datatype Mailbox = Mailbox(service: Channel, application: Channel)

  /** Record kinds (`MessageConstants`). */
  const Response: byte := 0x00
  const Connection: byte := 0x01

  const HeaderSize := 4

  function Select(mb: Mailbox, kind: Kind): Channel
  {
    match kind
    case Service => mb.service
    case Application => mb.application
  }

  /** mb with the channel of the given kind replaced. */
  function Update(mb: Mailbox, kind: Kind, ch: Channel): (r: Mailbox)
    ensures Select(r, kind) == ch
    ensures forall k :: k != kind ==> Select(r, k) == Select(mb, k)
  {
    match kind
    case Service => mb.(service := ch)
    case Application => mb.(application := ch)
  }

  /** The 16-bit length field of a header, read little-endian from bytes 2 and 3. */
  function LengthField(bytes: seq<byte>): (r: nat)
    requires |bytes| >= HeaderSize
    ensures r < 0x1_0000
  {
    bytes[2] as int + 256 * bytes[3] as int
  }

  // ---------------------------------------------------------------- framing

  /** A record whose length field is its own length. */
  predicate Framed(r: seq<byte>)
  {
    HeaderSize <= |r| < 0x1_0000 && LengthField(r) == |r|
  }

  /** The store cut into records by their length fields, or None when it does not cut cleanly. */
  function Records(store: seq<byte>): (r: Option<seq<seq<byte>>>)
    ensures r.Some? ==> forall i :: 0 <= i < |r.value| ==> Framed(r.value[i])
    decreases |store|
  {
    if |store| == 0 then Some([])
    else if |store| < HeaderSize then None
    else
      var n := LengthField(store);
      if n < HeaderSize || n > |store| then None
      else match Records(store[n..])
        case None => None
        case Some(rs) => Some([store[..n]] + rs)
  }

  /** The counter equals the number of well-framed records in the store. */
  predicate Consistent(ch: Channel)
  {
    Records(ch.store).Some? && ch.count == |Records(ch.store).value|
  }

  // ---------------------------------------------------------------- operations

  /** `writeMessage`: appends the record's bytes to the channel's store, then posts its semaphore. */
  function Write(mb: Mailbox, kind: Kind, record: seq<byte>): (r: Mailbox)
    ensures Select(r, kind).store == Select(mb, kind).store + record
    ensures Select(r, kind).count == Select(mb, kind).count + 1
    ensures forall k :: k != kind ==> Select(r, k) == Select(mb, k)
  {
    var ch := Select(mb, kind);
    Update(mb, kind, Channel(ch.store + record, ch.count + 1))
  }

  /** What `readMessage` needs to return a record rather than block or read past the end: a posted
      semaphore, a whole header, and a length field no shorter than the header and no longer than the
      store. */
  predicate CanRead(ch: Channel)
  {
    ch.count > 0 && |ch.store| >= HeaderSize &&
    HeaderSize <= LengthField(ch.store) <= |ch.store|
  }

  /** `readMessage`: waits on the semaphore, returns the first record as its length field delimits it,
      and writes the rest of the store back as the new contents of the file. */
  function Read(mb: Mailbox, kind: Kind): (r: (seq<byte>, Mailbox))
    requires CanRead(Select(mb, kind))
    ensures var ch := Select(mb, kind);
      |r.0| == LengthField(ch.store) && ch.store == r.0 + Select(r.1, kind).store
    ensures Select(r.1, kind).count == Select(mb, kind).count - 1
    ensures forall k :: k != kind ==> Select(r.1, k) == Select(mb, k)
  {
    var ch := Select(mb, kind);
    var n := LengthField(ch.store);
    assert ch.store == ch.store[..n] + ch.store[n..];
    (ch.store[..n], Update(mb, kind, Channel(ch.store[n..], ch.count - 1)))
  }

  /** `clearMessage`: drains the semaphore and truncates the file. */
  function Clear(mb: Mailbox, kind: Kind): (r: Mailbox)
    ensures Select(r, kind) == Channel([], 0)
    ensures forall k :: k != kind ==> Select(r, k) == Select(mb, k)
  {
    Update(mb, kind, Channel([], 0))
  }

  /** `initialize`: fails, leaving the channels alone, when the message files or the semaphores cannot
      be opened; otherwise clears both channels. Whether the files and semaphores open is the
      environment's answer, given as filesOpen and semaphoresOpen. */
  function Initialize(mb: Mailbox, filesOpen: bool, semaphoresOpen: bool): (r: Result<Mailbox>)
    ensures r.Ok? <==> filesOpen && semaphoresOpen
    ensures !filesOpen ==> r == Err("Error opening message files.")
    ensures filesOpen && !semaphoresOpen ==> r == Err("Error opening message semaphores.")
    ensures r.Ok? ==> r.value == Mailbox(Channel([], 0), Channel([], 0))
  {
    if !filesOpen then Err("Error opening message files.")
    else if !semaphoresOpen then Err("Error opening message semaphores.")
    else Ok(Clear(Clear(mb, Service), Application))
  }

  // ---------------------------------------------------------------- dispatch

  /** What a listener does with a record it read: `beginConnect` to an address, hand a response to the
      application, or nothing. Addresses are the raw 32-bit field; the conversion to text and the
      connection itself are outside this model. */
  datatype Action = Connect(address: nat) | Respond(name: string, address: nat) | Ignore

  /** The 32-bit address field, bytes 4 to 7, little-endian. */
  function AddressField(r: seq<byte>): (a: nat)
    requires |r| >= 8
    ensures a < 0x1_0000_0000
  {
    r[4] as int + 0x100 * r[5] as int + 0x1_0000 * r[6] as int + 0x100_0000 * r[7] as int
  }

  /** The first NUL byte at or after position i, if any. */
  function NulFrom(r: seq<byte>, i: nat): (p: Option<nat>)
    requires i <= |r|
    ensures p.None? <==> 0 !in r[i..]
    ensures p.Some? ==> i <= p.value < |r| && r[p.value] == 0 && 0 !in r[i..p.value]
    decreases |r| - i
  {
    if i == |r| then None
    else if r[i] == 0 then Some(i)
    else
      assert r[i..] == [r[i]] + r[i + 1..];
      match NulFrom(r, i + 1)
      case None => None
      case Some(p) =>
        assert r[i..p] == [r[i]] + r[i + 1..p];
        Some(p)
  }

  function AsText(bytes: seq<byte>): (s: string)
    ensures |s| == |bytes| && forall i :: 0 <= i < |s| ==> s[i] as int == bytes[i]
  {
    seq(|bytes|, i requires 0 <= i < |bytes| => bytes[i] as char)
  }

  /** What the record-kind dispatch may read: the kind byte, and for a record the listener acts on,
      the address field and a NUL-terminated name from byte 8 on. */
  predicate Dispatchable(listener: Kind, r: seq<byte>)
  {
    |r| >= 1 &&
    match listener
    case Service => r[0] == Connection ==> |r| >= 8
    case Application => r[0] == Response ==> |r| >= 8 && 0 in r[8..]
  }

  /** The listener loop body of `startService` (service channel) and `connectService` (application
      channel): the service acts only on connection records, the application only on responses. */
  function Dispatch(listener: Kind, r: seq<byte>): (a: Action)
    requires Dispatchable(listener, r)
    ensures listener == Service ==> (a.Connect? <==> r[0] == Connection) && !a.Respond?
    ensures listener == Application ==> (a.Respond? <==> r[0] == Response) && !a.Connect?
    ensures !a.Ignore? ==> a.address == AddressField(r)
    ensures a.Respond? ==> '\0' !in a.name && 8 + |a.name| < |r| && AsText(r[8..8 + |a.name|]) == a.name && r[8 + |a.name|] == 0
  {
    match listener
    case Service =>
      if r[0] == Connection then Connect(AddressField(r)) else Ignore
    case Application =>
      if r[0] == Response then
        var p := NulFrom(r, 8).value;
        assert forall c :: c in AsText(r[8..p]) ==> c != '\0' by {
          forall c | c in AsText(r[8..p]) ensures c != '\0' {
            var i :| 0 <= i < p - 8 && AsText(r[8..p])[i] == c;
            assert r[8..p][i] == r[8 + i];
          }
        }
        Respond(AsText(r[8..p]), AddressField(r))
      else Ignore
  }

  // ---------------------------------------------------------------- properties

  /** Appending a framed record to a store that cuts cleanly appends it to the records. */
  lemma {:induction false} RecordsAppend(store: seq<byte>, rec: seq<byte>)
    requires Records(store).Some? && Framed(rec)
    ensures Records(store + rec) == Some(Records(store).value + [rec])
    decreases |store|
  {
    var s := store + rec;
    if |store| == 0 {
      assert s == rec;
      assert s[..|rec|] == rec && s[|rec|..] == [];
      assert Records(s[|rec|..]) == Some([]);
      assert LengthField(s) == |rec|;
      assert [s[..|rec|]] + [] == [rec];
      assert Records(s) == Some([rec]);
      assert Records(store).value + [rec] == [rec];
    } else {
      var n := LengthField(store);
      assert s[..HeaderSize] == store[..HeaderSize];
      assert LengthField(s) == n;
      assert HeaderSize <= n <= |store|;
      RecordsAppend(store[n..], rec);
      assert s[n..] == store[n..] + rec;
      assert s[..n] == store[..n];
      var rs := Records(store[n..]).value;
      assert Records(store).value == [store[..n]] + rs;
      assert Records(s).value == [store[..n]] + (rs + [rec]);
      assert [store[..n]] + (rs + [rec]) == ([store[..n]] + rs) + [rec];
    }
  }

  /** A write of a framed record keeps the channel consistent and queues the record last. */
  lemma WriteQueues(mb: Mailbox, kind: Kind, rec: seq<byte>)
    requires Consistent(Select(mb, kind)) && Framed(rec)
    ensures var ch := Select(Write(mb, kind, rec), kind);
      Consistent(ch) && Records(ch.store).value == Records(Select(mb, kind).store).value + [rec]
  {
    RecordsAppend(Select(mb, kind).store, rec);
  }

  /** On a consistent channel with a record posted, a read can go ahead, returns the first record,
      and leaves the channel consistent with the remaining records. */
  lemma ReadDequeues(mb: Mailbox, kind: Kind)
    requires Consistent(Select(mb, kind)) && Select(mb, kind).count > 0
    ensures CanRead(Select(mb, kind))
    ensures var rs := Records(Select(mb, kind).store).value;
      var (rec, mb') := Read(mb, kind);
      rec == rs[0] && Consistent(Select(mb', kind)) && Records(Select(mb', kind).store).value == rs[1..]
  {
  }

  /** After `initialize` succeeds, both channels are empty and consistent. */
  lemma InitializeConsistent(mb: Mailbox, filesOpen: bool, semaphoresOpen: bool)
    requires Initialize(mb, filesOpen, semaphoresOpen).Ok?
    ensures var mb' := Initialize(mb, filesOpen, semaphoresOpen).value;
      Consistent(mb'.service) && Consistent(mb'.application) &&
      Records(mb'.service.store) == Some([]) && Records(mb'.application.store) == Some([])
  {
  }

  /** FIFO: on a cleared channel, two records written are read back in the order written, after which
      the channel is empty again. */
  lemma FirstInFirstOut(mb: Mailbox, kind: Kind, r1: seq<byte>, r2: seq<byte>)
    requires Framed(r1) && Framed(r2)
    ensures var mb1 := Write(Write(Clear(mb, kind), kind, r1), kind, r2);
      CanRead(Select(mb1, kind)) &&
      var (x1, mb2) := Read(mb1, kind);
      x1 == r1 && CanRead(Select(mb2, kind)) &&
      var (x2, mb3) := Read(mb2, kind);
      x2 == r2 && Select(mb3, kind) == Channel([], 0)
  {
    var mb0 := Clear(mb, kind);
    assert Records(Select(mb0, kind).store) == Some([]);
    WriteQueues(mb0, kind, r1);
    var mbA := Write(mb0, kind, r1);
    WriteQueues(mbA, kind, r2);
    var mb1 := Write(mbA, kind, r2);
    assert Records(Select(mb1, kind).store).value == [r1, r2];
    ReadDequeues(mb1, kind);
    var (x1, mb2) := Read(mb1, kind);
    ReadDequeues(mb2, kind);
    var (x2, mb3) := Read(mb2, kind);
    assert Records(Select(mb3, kind).store).value == [];
  }

  // ---------------------------------------------------------------- records the listeners act on

  /** A 32-bit number as four little-endian bytes. */
  function Le32(a: nat): (r: seq<byte>)
    requires a < 0x1_0000_0000
    ensures |r| == 4
  {
    [a % 0x100, a / 0x100 % 0x100, a / 0x1_0000 % 0x100, a / 0x100_0000]
  }

  lemma Le32Address(a: nat)
    requires a < 0x1_0000_0000
    ensures AddressField([0, 0, 0, 0] + Le32(a)) == a
  {
    var b := Le32(a);
    assert a / 0x1_0000 == (a / 0x100) / 0x100;
    assert a / 0x100_0000 == (a / 0x1_0000) / 0x100;
    assert a == b[0] + 0x100 * (a / 0x100);
    assert a / 0x100 == b[1] + 0x100 * (a / 0x1_0000);
    assert a / 0x1_0000 == b[2] as int + 0x100 * b[3] as int;
  }

  /** A connection request for an address, as a service reader expects it. */
  function ConnectionRecord(address: nat): (r: seq<byte>)
    requires address < 0x1_0000_0000
    ensures Framed(r) && r[0] == Connection
  {
    [Connection, 0, 8, 0] + Le32(address)
  }

  /** A response carrying a name and an address, as an application reader expects it. */
  function ResponseRecord(name: string, address: nat): (r: seq<byte>)
    requires address < 0x1_0000_0000 && 9 + |name| < 0x1_0000
    requires forall i :: 0 <= i < |name| ==> 0 < name[i] as int < 256
    ensures Framed(r) && r[0] == Response
  {
    var n := 9 + |name|;
    [Response, 0, n % 0x100, n / 0x100] + Le32(address) + seq(|name|, i requires 0 <= i < |name| => name[i] as int) + [0]
  }

  /** The service listener connects to the address of a connection record. */
  lemma ServiceActsOnConnection(address: nat)
    requires address < 0x1_0000_0000
    ensures Dispatchable(Service, ConnectionRecord(address))
    ensures Dispatch(Service, ConnectionRecord(address)) == Connect(address)
  {
    var r := ConnectionRecord(address);
    Le32Address(address);
    assert r == [0, 0, 0, 0][0 := Connection][2 := 8] + Le32(address);
    assert AddressField(r) == AddressField([0, 0, 0, 0] + Le32(address));
  }

  /** The application listener hands on the name and address of a response record. */
  lemma ApplicationActsOnResponse(name: string, address: nat)
    requires address < 0x1_0000_0000 && 9 + |name| < 0x1_0000
    requires forall i :: 0 <= i < |name| ==> 0 < name[i] as int < 256
    ensures Dispatchable(Application, ResponseRecord(name, address))
    ensures Dispatch(Application, ResponseRecord(name, address)) == Respond(name, address)
  {
    var r := ResponseRecord(name, address);
    var bytes := seq(|name|, i requires 0 <= i < |name| => name[i] as int);
    assert r[8..] == bytes + [0];
    assert r[8 + |name|] == 0;
    NulAfter(r, 8, |name|);
    assert r[8..8 + |name|] == bytes;
    assert AsText(bytes) == name;
    Le32Address(address);
    assert AddressField(r) == AddressField([0, 0, 0, 0] + Le32(address));
  }

  /** The first NUL at or after i is the one at i + k when the k bytes before it hold none. */
  lemma NulAfter(r: seq<byte>, i: nat, k: nat)
    requires i + k < |r| && r[i + k] == 0 && 0 !in r[i..i + k]
    ensures NulFrom(r, i) == Some(i + k)
  {
    assert r[i..][k] == 0;
  }

  /** Each listener ignores the records meant for the other. */
  lemma ListenersIgnoreOtherKind(name: string, address: nat)
    requires address < 0x1_0000_0000 && 9 + |name| < 0x1_0000
    requires forall i :: 0 <= i < |name| ==> 0 < name[i] as int < 256
    ensures Dispatch(Service, ResponseRecord(name, address)) == Ignore
    ensures Dispatch(Application, ConnectionRecord(address)) == Ignore
  {
  }
}

=== FILE: queues.dfy ===
/** `ThreadSafeQueue<T>`: a FIFO queue behind a mutex. The mutex only serializes the operations, so
    the queue is modelled as the sequence of its values, front first, and each operation as a
    function from the old sequence to the new one. */
module SafeQueue {
  import opened Wrappers

  /** `push`: v goes to the back; the values already queued stay as they were. */
  function Push<T>(q: seq<T>, v: T): (r: seq<T>)
    ensures |r| == |q| + 1 && r[|q|] == v
    ensures r[..|q|] == q
  {
    q + [v]
  }

  /** `pop`: nothing from an empty queue, which stays empty; otherwise the front value, removed. */
  function Pop<T>(q: seq<T>): (r: (Option<T>, seq<T>))
    ensures r.0.None? <==> |q| == 0
    ensures |q| == 0 ==> r.1 == []
    ensures |q| > 0 ==> r.0 == Some(q[0]) && q == [q[0]] + r.1
  {
    if |q| == 0 then (None, q)
    else (Some(q[0]), q[1..])
  }

  /** The queue after pushing vs one at a time, in order. */
  function PushAll<T>(q: seq<T>, vs: seq<T>): seq<T>
    decreases |vs|
  {
    if |vs| == 0 then q else PushAll(Push(q, vs[0]), vs[1..])
  }

  lemma {:induction false} PushAllAppends<T>(q: seq<T>, vs: seq<T>)
    ensures PushAll(q, vs) == q + vs
    decreases |vs|
  {
    if |vs| > 0 {
      PushAllAppends(Push(q, vs[0]), vs[1..]);
      assert q + [vs[0]] + vs[1..] == q + vs;
    }
  }

  /** Pops until the queue reports empty, collecting the values in the order they came out. */
  method Drain<T>(q: seq<T>) returns (out: seq<T>)
    ensures out == q
  {
    var rest := q;
    out := [];
    while true
      invariant out + rest == q
      decreases |rest|
    {
      var (v, rest') := Pop(rest);
      if v.None? {
        return;
      }
      out := out + [v.value];
      rest := rest';
    }
  }

  /** Values come out in the order they went in: pushing vs onto q and draining gives q, then vs. */
  method PushThenDrain<T>(q: seq<T>, vs: seq<T>) returns (out: seq<T>)
    ensures out == q + vs
  {
    PushAllAppends(q, vs);
    out := Drain(PushAll(q, vs));
  }
}

/** `MainThreadQueue`: tasks queued from any thread and run on the main thread. A task is opaque;
    what running one does to the queue is the tasks it pushes, given as a parameter. */
module ThreadQueue {
  import opened Wrappers

  /** `push`: the same append whether the caller is the main thread (no lock) or another thread
      (under the lock). */
  function Push<T>(q: seq<T>, task: T, onMainThread: bool): (r: seq<T>)
    ensures |r| == |q| + 1 && r[..|q|] == q && r[|q|] == task
  {
    if onMainThread then q + [task]
    else q + [task]
  }

  /** `execute(block)`: runs the front task, if there is one, and removes it. The task runs while it
      is still at the front, so the tasks it pushes (pushed) land behind everything already queued.
      A blocking call waits for another thread's push; sequentially that means the queue must not be
      empty. */
  function Execute<T>(q: seq<T>, block: bool, pushed: seq<T>): (r: (Option<T>, seq<T>))
    requires block ==> |q| > 0
    ensures r.0.None? <==> |q| == 0
    ensures |q| == 0 ==> r.1 == q
    ensures |q| > 0 ==> r.0 == Some(q[0]) && [q[0]] + r.1 == q + pushed
  {
    if |q| == 0 then (None, q)
    else (Some(q[0]), q[1..] + pushed)
  }

  /** Which thread pushes makes no difference to the queue. */
  lemma PushIgnoresThread<T>(q: seq<T>, task: T)
    ensures Push(q, task, true) == Push(q, task, false)
  {
  }

  /** Runs tasks that push nothing until the queue is empty, recording the order they ran in. */
  method RunAll<T>(q: seq<T>) returns (ran: seq<T>)
    ensures ran == q
  {
    var rest := q;
    ran := [];
    while |rest| > 0
      invariant ran + rest == q
      decreases |rest|
    {
      var (t, rest') := Execute(rest, true, []);
      ran := ran + [t.value];
      rest := rest';
    }
    var (t, rest') := Execute(rest, false, []);
    assert t.None? && rest' == [];
  }

  /** Tasks run in push order: pushing ts onto an empty queue and executing until empty runs ts. */
  method PushedRunInOrder<T>(ts: seq<T>, onMainThread: bool) returns (ran: seq<T>)
    ensures ran == ts
  {
    var q: seq<T> := [];
    var i := 0;
    while i < |ts|
      invariant 0 <= i <= |ts| && q == ts[..i]
    {
      q := Push(q, ts[i], onMainThread);
      i := i + 1;
    }
    assert q == ts;
    ran := RunAll(q);
  }

  /** A task pushed while another runs comes after every task already queued. */
  lemma PushedDuringRunComesLast<T>(q: seq<T>, pushed: seq<T>)
    requires |q| > 0
    ensures Execute(q, false, pushed).1 == q[1..] + pushed
    ensures Execute(q, true, pushed) == Execute(q, false, pushed)
  {
  }
}

=== FILE: wrappers.dfy ===
/** Failure-carrying return types shared by the codec, the mailbox and the flag parser. */
module Wrappers {

  /** A value that may be absent: the model of a null pointer or an empty `std::optional`. */
  datatype Option<+T> = None | Some(value: T)

  /** The outcome of an operation that reports an error message instead of a value. */
  datatype Result<+T> = Ok(value: T) | Err(message: string)
}
